=== FILE: README.md ===
# snake-evolution: the discrete step logic in Dafny

This project models the grid-based core of the snake-evolution browser game.
The game appears in three iterations of one Phaser scene:

- **TypeScript scene** (`src/game.ts`, with `src/snake.ts`, `src/fruit.ts` and
  `src/mole.js`). The snake is a separate entity with a committed and a
  pending direction. A fruit's lifetime shrinks with difficulty and grows
  with its distance from the head. A pool of at most five hazards ("moles")
  spawns near the head and expires. Modules: `SnakeEntity` (`snake.dfy`),
  `FruitTimer` (`fruit.dfy`), `Moles` (`mole.dfy`) and `Scene` (`scene.dfy`).
- **Boosted scene** (`src/game.js`). The same step is inlined in one scene.
  The board is a fixed 800 x 600, the food is drawn without looking at the
  body, and the speed-up tests the speed in effect rather than the base
  speed. Module `BoostedScene` (`boost_scene.dfy`).
- **Classic scene** (`index.js`). Positions are in grid units. The arrow keys
  write the direction directly, with no pending latch. The self test skips
  the head, and the interval drops by 10 every fifth meal. Module
  `ClassicScene` (`classic_scene.dfy`).

`Grid` (`grid.dfy`) holds the shared shapes: cells, directions, hazards, the
one-cell shift, the snap to the grid and the arrow-key priority.

Each object the source updates in place is a Dafny `class` with the same
fields. The snake body is a `seq` that the methods reassign, head first. Each
mutating method states its new state against `old` values. The parts left
unstated are the visual body in the frame-level methods of the TypeScript
scene (`Tick`, `Housekeep`, `Run`, `Update`) and a fruit when no draw is
free; each is named under "## Left out" on the member's line. Where an
operation is pure, or the source's promise spans several calls, a function
specifies it and lemmas prove what the source promises: the step outcome
(`Scene.Classify`, `Scene.NextBody`), the hazard pool (`Moles.Live`,
`Moles.AfterSpawn`) and the speed schedules.

The main invariants, all proved to be preserved:

- TypeScript scene: the body is never empty, consecutive segments are one
  cell apart, and no two segments share a cell. The score is always 10 times
  the number of fruits eaten. The pending direction never reverses the
  committed one. The base speed stays a multiple of 5 in [50, 200], and the
  speed in effect is always derived from it. The hazard pool holds at most
  five hazards, each on the board, on the grid and alone in its cell.
- Boosted scene: the same speed invariant holds, although the speed-up rule
  differs. With the boost held throughout, the speed-up stops at a base of
  150 instead of 50.
- Classic scene: the interval stays a multiple of 10 in [50, 150], and the
  body keeps its cells distinct.

Randomness comes in as parameters: the fruit and food cells drawn, the
hazard offsets drawn, and the square root as a function `sqrt` with
`IsSquareRoot(sqrt)`. Keyboard state comes in as a `Grid.Input` value. The
end of the explosion effect comes in as a boolean.

Two behaviours of the code are easy to miss:

- A restart does not rebuild the whole scene. In `src/game.js`, `create`
  resets the body, food, score and pause, but keeps the directions, speeds,
  boost and move time (`BoostedScene.MainScene.Create`). So a session
  restarted while heading left runs into its own second segment on its
  first step, unless an up or down key held before that step turns it
  (`BoostedScene.RestartHeadingLeftEndsAtOnce` states the case with no key
  held).
- The speed-up in `src/game.js` tests `speed > 50`. While boosting, that
  blocks the speed-up for base speeds from 55 to 150
  (`BoostedScene.BoostedSpeedUpDiffers`).

## Model

| member | source | states |
|---|---|---|
| Grid.ParseDirection | src/snake.ts:126-132 | only the four names left, right, up, down are read as directions; any other string names none |
| Grid.NameRoundTrip | src/snake.ts:126-132 | reading back the name of a direction gives that direction |
| Grid.Shift | src/snake.ts:90-107 | the moved cell differs from the start on exactly one axis, by exactly `unit`; left and right keep the row; right and down increase a coordinate |
| Grid.ShiftThenBack | src/snake.ts:95-103 | a shift undone by the opposite shift returns to the start; a non-zero shift never stays put |
| Grid.Snap | src/mole.js:71-72 | the snapped value is grid-aligned and is the cell edge at or below the value, negative values included |
| Grid.PrependKeepsDistinct | src/game.ts:228-248 | prepending a free cell keeps the body's cells distinct, with or without its last segment |
| Grid.ChosenTurn | src/game.ts:160-168 | the chosen key is held and does not reverse the current direction, and no eligible key ranks before it in the order left, right, up, down; nothing is chosen exactly when every held key is the reverse |
| SnakeEntity.Ease | src/snake.ts:79-80 | one frame closes 40% of the gap between a visual segment and its cell; a segment already on its cell stays |
| SnakeEntity.EffectiveSpeed | src/snake.ts:156-172 | with boost the interval is `floor(baseSpeed / 3)`, without it the base speed; never above the base speed |
| SnakeEntity.BoostFromStart | src/snake.ts:159 | boosting from the starting base speed of 200 gives 66 |
| SnakeEntity.NextBaseSpeed | src/snake.ts:174-180 | a meal takes exactly 5 off the base speed when it is above 50 and otherwise leaves it |
| SnakeEntity.BaseSpeedSchedule | src/snake.ts:25-26 | after n meals from 200 the base speed is `max(50, 200 - 5n)`, always a multiple of 5 |
| SnakeEntity.Steered | src/snake.ts:124-134 | a request changes the pending direction only to a named direction that is not the reverse of the committed one, and always does so for such a request |
| SnakeEntity.LatchNeverReverses | src/snake.ts:124-138 | however many requests arrive between two steps, the pending direction never reverses the committed one |
| SnakeEntity.Snake.constructor | src/snake.ts:19-42 | three segments from (400, 300) heading right at speed 200, each visual segment on its cell |
| SnakeEntity.Snake.UpdateVisualPositions | src/snake.ts:66-88 | the visual body ends with one entry per segment, each existing entry eased toward its cell and each missing one placed on its cell |
| SnakeEntity.Snake.Move | src/snake.ts:90-107 | returns the head shifted one cell along the committed direction, with the body unchanged |
| SnakeEntity.Snake.AddSegment | src/snake.ts:109-116 | the body becomes the position followed by the old body, and the visual body grows in step |
| SnakeEntity.Snake.RemoveTail | src/snake.ts:118-122 | on a non-empty body, returns the last segment and drops it from both bodies; on an empty body nothing is returned |
| SnakeEntity.Snake.SetDirection | src/snake.ts:124-134 | the pending direction becomes `Steered(direction, old pending, request)`, and the latch invariant is kept |
| SnakeEntity.Snake.ApplyDirection | src/snake.ts:136-138 | the committed direction becomes the pending one, and nothing else changes |
| SnakeEntity.Snake.CheckCollisionWithSelf | src/snake.ts:140-148 | true exactly when some segment, the tail included, is at (x, y) |
| SnakeEntity.Snake.CheckCollisionWithWalls | src/snake.ts:150-154 | true exactly when (x, y) is outside [0, width) x [0, height) |
| SnakeEntity.Snake.SetBoost | src/snake.ts:156-172 | the boost flag takes the given value, and the interval is derived from the base speed and the new flag |
| SnakeEntity.Snake.IncreaseSpeed | src/snake.ts:174-180 | the base speed becomes `NextBaseSpeed` of the old one, and the interval is derived again with the current boost flag |
| FruitTimer.DifficultyFactor | src/fruit.ts:96 | `min(n / 20, 1)` lies in [0, 1], is 0 with no fruit eaten, and is 1 exactly from 20 fruits on |
| FruitTimer.CurrentMinLifetime | src/fruit.ts:99-100 | the lower bound lies in [1500, 5000], starting at 5000 and reaching 1500 at full difficulty |
| FruitTimer.CurrentMaxLifetime | src/fruit.ts:101-102 | the upper bound lies in [5000, 10000], starting at 10000 and reaching 5000 at full difficulty |
| FruitTimer.BoundsShrinkWithDifficulty | src/fruit.ts:96-102 | both bounds only fall as more fruit is eaten |
| FruitTimer.NormalizedDistance | src/fruit.ts:106 | the clamped distance lies in [0, 1], and is 1 exactly from 20 cells on |
| FruitTimer.Lerp | src/fruit.ts:106-107 | interpolating between two ordered bounds by a fraction in [0, 1] stays between them, giving the lower bound at 0 and the upper at 1 |
| FruitTimer.Lifetime | src/fruit.ts:106-107 | the lifetime lies between the current bounds (and so in [1500, 10000]); it is the upper bound from 20 cells on and the lower bound at distance 0 |
| FruitTimer.LifetimeGrowsWithDistance | src/fruit.ts:106-107 | a farther fruit never lives shorter |
| FruitTimer.SquaredCellDistance | src/fruit.ts:90-93 | the squared distance in cells from the head is never negative, so its square root is defined |
| FruitTimer.FirstFreeDraw | src/fruit.ts:60-87 | the retry loop finds a draw exactly when some drawn cell is off the snake and off every hazard, and then the first such draw |
| FruitTimer.Fruit.constructor | src/fruit.ts:25-36 | the fruit starts at (0, 0) with zero lifetime, expiry and distance |
| FruitTimer.Fruit.Spawn | src/fruit.ts:55-114 | places the fruit on the first drawn cell off the snake and off every hazard (so aligned and on the board), with its Euclidean cell distance to the head, the lifetime `Lifetime(fruitsEaten, distance)` and expiry `now + lifetime` (`PlacedFrom`); a draw is placed exactly when some drawn cell is free, and when none is, nothing changes |
| FruitTimer.Fruit.PlaceAt | src/fruit.ts:89-113 | the fruit takes the cell, its distance is the square root of the squared cell distance to the head, its lifetime `Lifetime` of that distance and its expiry `now + lifetime` |
| FruitTimer.Fruit.Update | src/fruit.ts:116-126 | reports expiry exactly when `time >= expiryTime` |
| FruitTimer.Fruit.CheckCollision | src/fruit.ts:168-170 | true exactly when (x, y) is the fruit's cell |
| Moles.Live | src/mole.js:33-41 | the hazards kept are exactly those whose expiry is after `time`, never more than before |
| Moles.PruneStep | src/mole.js:34-41 | removing expired hazards one index at a time from the back builds the same list |
| Moles.LiveKeepsDistinct | src/mole.js:33-41 | pruning never puts two hazards on one cell |
| Moles.Candidate | src/mole.js:67-72 | a candidate is grid-aligned, and is the cell containing head plus offset |
| Moles.FirstFree | src/mole.js:57-99 | the first acceptable candidate is on the board, off the snake, off every hazard and one of the drawn candidates; none is found exactly when every candidate is rejected |
| Moles.FirstFreeAt | src/mole.js:57-99 | the search returns the candidate of the first accepted attempt |
| Moles.AfterSpawn | src/mole.js:48-107 | a spawn adds at most one hazard at the end, keeps the old ones, and adds nothing for an empty snake; the new hazard is acceptable, aligned and expires at `now + 3000` |
| Moles.SpawnAndPruneKeepPlacement | src/mole.js:71-107 | spawning and pruning both keep every hazard on the board, aligned and alone in its cell |
| Moles.MoleManager.constructor | src/mole.js:2-11 | an empty pool with its first spawn due at time 0 |
| Moles.MoleManager.SpawnMole | src/mole.js:48-107 | at most 20 attempts; the pool becomes `AfterSpawn` of the old pool |
| Moles.MoleManager.Update | src/mole.js:26-46 | a spawn is attempted only when `time >= nextMoleTime` and fewer than 5 hazards are active, and the next attempt is then due 2000 later even if nothing was placed; the pool becomes the live part of the result; the cap and placement invariant are kept |
| Moles.MoleManager.RemoveExpired | src/mole.js:33-41 | the backward splice loop leaves exactly the hazards alive at `time`, in order |
| Moles.MoleManager.CheckCollision | src/mole.js:148-161 | a collision is reported exactly when a hazard occupies (x, y), together with the centre of that cell |
| Scene.Classify | src/game.ts:203-231 | the step outcome is a wall hit exactly off the board, a self hit exactly on any segment, a hazard hit exactly on a hazard, and a meal exactly on the fruit, tested in that order |
| Scene.NextBody | src/game.ts:204-248 | a wall or self hit leaves the body alone; a hazard hit or a meal prepends the head (length + 1); otherwise the head is prepended and the last segment dropped (length unchanged) |
| Scene.GrowKeepsSnakeWhole | src/game.ts:227-248 | prepending a free neighbouring cell keeps the snake connected and its cells distinct, with or without its last segment |
| Scene.StepKeepsSnakeWhole | src/game.ts:193-249 | whatever the outcome, the next body is non-empty, connected and without repeated cells |
| Scene.TailCellIsFatal | src/game.ts:209-213 | stepping onto the cell the tail is about to leave is still a self hit |
| Scene.FirstStepFromStart | src/game.ts:197-248 | from the starting body heading right, a step that meets nothing gives (420,300), (400,300), (380,300) |
| Scene.Turned | src/game.ts:159-168 | a frame's keys change the pending direction only to a held key that does not reverse the committed direction, so the latch is kept |
| Scene.MainScene.constructor | src/game.ts:43-132 | the scene starts running and unpaused with score 0 and move time 0, the starting snake heading right with right pending, an empty hazard pool whose first spawn is due at 0, fresh snake, fruit and hazard objects, and the first fruit placed as `PlacedFrom` the draws with 0 fruits eaten at `now` (first free draw, its distance to the head, `Lifetime(0, distance)`, expiry `now + lifetime`) |
| Scene.MainScene.GameOver | src/game.ts:251-261 | the session is ended, and a restart is scheduled unless an explosion is playing |
| Scene.MainScene.MoveSnake | src/game.ts:193-249 | a no-op once the session has ended; otherwise commits the pending direction and applies the outcome: the body and visual body gain the head on a hazard hit or a meal, gain it and lose the tail on a plain move, and stay on a wall or self hit; a wall, self or hazard hit ends the session, only a meal raises fruits eaten by 1, score by 10 and speeds up, only a hazard hit starts the explosion; without a meal the fruit is untouched, and after one the new fruit is `PlacedFrom` the draws against the grown body and the raised counter |
| Scene.MainScene.Advance | src/game.ts:227-248 | with no collision, the head is prepended to the body and the visual body; then either the fruit is eaten (counter and score raised, base speed lowered, the new fruit `PlacedFrom` the draws against the grown body at the raised counter) or the tail is dropped and the fruit untouched |
| Scene.MainScene.HitMole | src/game.ts:215-225 | a step onto a hazard prepends the head to the body and the visual body, keeps the snake whole, starts the explosion and ends the session without scheduling a restart |
| Scene.MainScene.Update | src/game.ts:134-191 | space toggles the pause; while paused or ended nothing but the explosion moves; otherwise the boost follows the keys, the hazard pool is pruned and spawns on its 2000 ms gate, and: before `moveTime` body, score, counter, session flags, base speed and committed direction stay; in a frame without a meal an unexpired fruit is untouched and an expired one is `PlacedFrom` the expiry draws; from `moveTime` on one step is taken (`Stepped`: the pending direction is committed, the body becomes `NextBody` of the `Classify` outcome against the refreshed hazards and the fruit, which is the old fruit or, if it expired this frame, the first free expiry draw, and the session end, explosion, restart flag, counter, score and base speed follow that outcome), a meal's new fruit is `PlacedFrom` the meal draws against the grown body and raised counter, and `moveTime == time + speed` |
| Scene.MainScene.Run | src/game.ts:152-190 | the running branch of `Update`, with the same promises: hazards and their spawn gate, an unchanged scene apart from keys and boost before the move time, the expired fruit's respawn, and from the move time on one step as `Stepped` states, the meal's fruit placement and `moveTime == time + speed` |
| Scene.MainScene.Tick | src/game.ts:187-190 | the move gate takes one step as `Stepped` states (commit the pending direction, apply the `Classify` outcome against the current fruit and hazards), leaves the fruit untouched without a meal and `PlacedFrom` the meal draws after one, and makes the next step due `speed` later |
| Scene.MainScene.Housekeep | src/game.ts:152-177 | the frame's boost and keys, and the hazard pool's update with its next spawn time, with the body, committed direction and base speed untouched; an unexpired fruit is untouched and an expired one is `PlacedFrom` the expiry draws against the old body and hazards |
| Scene.MainScene.Refresh | src/game.ts:172-177 | an unexpired fruit is untouched and an expired one is `PlacedFrom` the expiry draws against the hazards before the update; the next spawn time moves 2000 ms on exactly when a spawn is due, and the hazard pool becomes the live part of the pool after that optional spawn |
| Scene.MainScene.Steer | src/game.ts:159-168 | the pending direction becomes the first eligible held key in priority order, or stays |
| BoostedScene.BoostedNextBaseSpeed | src/game.js:300-305 | a meal takes 5 off the base speed exactly when the speed in effect is above 50 |
| BoostedScene.BoostedSpeedUpDiffers | src/game.js:300-305 | this rule and the snake entity's rule differ exactly for a held boost and a base speed in (50, 152] |
| BoostedScene.BoostedSchedule | src/game.js:300-305 | after n meals from 200 the base speed is `max(150, 200 - 5n)` with the boost held, and `max(50, 200 - 5n)` without |
| BoostedScene.FoodCell | src/game.js:292-293 | the pixel cell of a drawn column and row (`Grid.CellOf`) is aligned and on the 800 x 600 board |
| BoostedScene.RestartHeadingLeftEndsAtOnce | src/game.js:35-41 | from the starting body, a step to the left is a self hit |
| BoostedScene.MainScene.constructor | src/game.js:4-88 | the starting body and food, heading right, speed and base speed 200, no boost, score 0, unpaused |
| BoostedScene.MainScene.Create | src/game.js:24-88 | a restart resets body, food, score and pause, and keeps the directions and speeds |
| BoostedScene.MainScene.Update | src/game.js:90-163 | space toggles the pause; while paused nothing changes; otherwise the boost flag follows shift or X and the keys set the pending direction; before `moveTime` body, score, food, base speed, committed direction and restart request stay; exactly when `time >= moveTime` the turned direction is committed (and stays pending) and the step applies its `Classify` outcome (body `NextBody`, restart request on a hit, 10 points, the drawn food and `BoostedNextBaseSpeed` on a meal), after which `moveTime == time + speed` |
| BoostedScene.MainScene.HandleInput | src/game.js:105-156 | the interval follows the boost keys, and the pending direction becomes `Turned` of the arrow keys |
| BoostedScene.MainScene.MoveSnake | src/game.js:254-313 | commits the pending direction; a wall or body hit on the 800 x 600 board asks for a restart and leaves body, score and food; a meal prepends the head, adds 10, moves the food to the drawn cell without checking the body and applies `BoostedNextBaseSpeed`; otherwise the length is unchanged |
| BoostedScene.MainScene.Advance | src/game.js:286-309 | the head is prepended, then the food is eaten or the tail dropped |
| BoostedScene.MainScene.SpeedUp | src/game.js:300-305 | the base speed becomes `BoostedNextBaseSpeed` of the old one, and the speed invariant is kept |
| ClassicScene.SkippingHeadIsHarmless | index.js:130-135 | for a one-unit step, hitting a segment past the head is the same as hitting any segment |
| ClassicScene.FirstOffSnake | index.js:145-166 | the chosen food is the first draw off the snake; there is none exactly when every draw is on the snake |
| ClassicScene.FirstOffSnakeAt | index.js:149-163 | the search returns the first draw it accepts |
| ClassicScene.FoodMayLandOnNewHead | index.js:92-110 | since the food is drawn before the new head is added, a meal can put the next food under the new head |
| ClassicScene.NextSpeed | index.js:98-101 | the interval drops, by 10 and not below 50, exactly when the new score is a multiple of 50 and the interval is above 50 |
| ClassicScene.SpeedSchedule | index.js:19 | after n meals the interval is `max(50, 150 - 10 * floor(n / 5))` |
| ClassicScene.MealCount | index.js:94-99 | the score of meal n is a multiple of 50 exactly when n is a multiple of 5 |
| ClassicScene.DirectSteeringCanReverse | index.js:52-60 | two frames between steps (up, then left) turn a snake heading right around |
| ClassicScene.MainScene.constructor | index.js:12-38 | three segments (10,10), (9,10), (8,10) heading right at interval 150, alive with score 0, and the first food drawn off the snake |
| ClassicScene.MainScene.AddFood | index.js:140-166 | the food becomes the first draw off the snake, which is on the grid |
| ClassicScene.MainScene.CheckCollision | index.js:120-138 | true exactly when the cell is off the 50 x 37 grid or on a segment other than the head |
| ClassicScene.MainScene.GameOver | index.js:201-244 | the session ends and the restart key is armed |
| ClassicScene.MainScene.Update | index.js:47-118 | nothing changes after a game over; otherwise the keys write the direction directly, and a step is taken exactly when `time >= moveTime` |
| ClassicScene.MainScene.Step | index.js:62-117 | a collision ends the session without touching body, score, food, interval or move time; otherwise the head moves one unit, a meal scores 10, draws the next food and may lower the interval, no meal keeps the length, and the next step is due `speed` later |
| ClassicScene.MainScene.Advance | index.js:90-113 | the tail is dropped unless the fruit is eaten, then the head is added and the move time set |
| ClassicScene.MainScene.Eat | index.js:94-101 | a meal adds 10 to the score, draws the next food off the snake and sets the interval to `NextSpeed` of the new score, keeping the interval and score invariants |

## Left out

- Drawing is not modelled: graphics, text, colours and the fruit and hazard colour interpolation. It is presentation only.
- Particles and `src/explosion.js` are not part of this model. They are floating-point effects driven by random draws. The explosion is the flag `Scene.MainScene.explosionActive`, and the end of its timer is the `explosionOver` input of `Scene.MainScene.Update`.
- The explosion check in the running branch of `update` (`src/game.ts:179-184`) is not modelled as code. `Valid` proves that no explosion plays while a session runs, so the check never fires.
- `Math.random`, `Phaser.Math.Between`, `cos`, `sin` and `sqrt` are parameters: drawn cells, drawn integer offsets and a square-root function. The floating-point arithmetic of the fruit lifetime and of the visual easing is modelled over exact reals.
- Moles.MoleManager.SpawnMole: the offsets are any integers. The model does not constrain them to the ring 5 to 10 cells from the head that the source draws from. The search itself is modelled exactly.
- FruitTimer.Fruit.Spawn: the source retries random cells without bound. The model reads a finite sequence of draws. When none of them is free, it leaves the fruit unchanged and reports `placed == false`, where the source would keep drawing.
- ClassicScene.MainScene.AddFood: the same finite-draw weakening as `FruitTimer.Fruit.Spawn`.
- Scene.MainScene.Update: the eased visual body is not stated; `SnakeEntity.Snake.UpdateVisualPositions` states it. A fruit eaten when no meal draw is free is not stated (the finite-draw weakening of `FruitTimer.Fruit.Spawn`).
- Scene.MainScene.Run: the same omissions as `Scene.MainScene.Update`.
- Scene.MainScene.Housekeep: the eased visual body is not stated, as in `Scene.MainScene.Update`.
- Scene.MainScene.Tick: the visual body after the step is not stated; `Scene.MainScene.MoveSnake` states it. The meal's new fruit is stated only when some draw is free.
- Scene.MainScene.MoveSnake: after a meal, the new fruit is stated only when some draw is free, as in `FruitTimer.Fruit.Spawn`.
- Scene.MainScene.Advance: the same finite-draw weakening as `Scene.MainScene.MoveSnake`.
- Scene.MainScene.constructor: `create` and the constructor are one step. The first fruit is stated only when some draw is free.
- Restarts are not modelled: Phaser's `scene.restart`, the 1500 ms `delayedCall`, and the one-shot space-bar listener. Each becomes a flag (`restartPending`, `restartRequested`, `restartArmed`). The rebuild of the TypeScript scene's components on restart is not modelled.
- `Scene.MainScene.Update` reads the scene clock as the frame's `time`, where the source reads `scene.time.now` for hazard and fruit expiry.
- Frame times, move times, hazard expiry times and `nextMoleTime` are whole milliseconds (`int`). Phaser's `time` and `scene.time.now` may be fractional. The source only adds and compares these times, so no stated result depends on the fraction.
- Board sizes are parameters (`width`, `height`) in the TypeScript scene, and constants in the two JavaScript scenes. The window resize listener and DOM styling are left out.
- `webpack.config.js` is not part of this model (build configuration). `src/types.ts` contributes only the shapes `Pos` and `Mole`.

=== FILE: boost_scene.dfy ===
/** The boosted JavaScript iteration: one scene that holds the body, the
    committed and pending directions, the speed and boost fields, a single
    food cell and the pause flag, on a fixed 800 x 600 board with no
    hazards. */
module BoostedScene {
  import opened Grid
  import opened SnakeEntity
  import opened Scene

  const BoardWidth: int := 800
  const BoardHeight: int := 600
  /** Columns and rows the food is drawn from. */
  const FoodColumns: int := 40
  const FoodRows: int := 30

  const InitialBody: seq<Pos> := [Pos(400, 300), Pos(380, 300), Pos(360, 300)]
  const InitialFood: Pos := Pos(300, 300)

  /** The base speed after one meal: five milliseconds off only while the
      speed in effect, boosted or not, is above 50. */
  function BoostedNextBaseSpeed(b: int, boost: bool): (r: int)
    ensures r == b || r == b - SpeedStep
    ensures r < b <==> EffectiveSpeed(b, boost) > MinBaseSpeed
  {
    if EffectiveSpeed(b, boost) > MinBaseSpeed then b - SpeedStep else b
  }

  /** The speed-up of this iteration and that of the snake entity differ
      exactly when the boost is on and the base speed is above 50 but at
      most 152, where a third of it is no longer above 50. */
  lemma BoostedSpeedUpDiffers(b: int, boost: bool)
    ensures BoostedNextBaseSpeed(b, boost) != NextBaseSpeed(b) <==> boost && MinBaseSpeed < b <= 152
  {
    if boost {
      assert b / BoostDivisor > MinBaseSpeed <==> b >= 153;
    }
  }

  /** The base speed after `meals` meals eaten with the boost held on (or
      off) throughout, from 200. */
  function BoostedBaseAfter(meals: nat, boost: bool): int
  {
    if meals == 0 then InitialSpeed else BoostedNextBaseSpeed(BoostedBaseAfter(meals - 1, boost), boost)
  }

  /** Held boost stops the speed-up at 150 instead of 50. */
  lemma {:induction false} BoostedSchedule(meals: nat, boost: bool)
    ensures BoostedBaseAfter(meals, boost) == Max(if boost then 150 else MinBaseSpeed, InitialSpeed - SpeedStep * meals)
  {
    if meals > 0 {
      BoostedSchedule(meals - 1, boost);
      var b := BoostedBaseAfter(meals - 1, boost);
      if boost {
        assert b / BoostDivisor > MinBaseSpeed <==> b >= 153;
      }
    }
  }

  /** The cell of a drawn food column and row. */
  function FoodCell(draw: Pos): (c: Pos)
    requires 0 <= draw.x < FoodColumns && 0 <= draw.y < FoodRows
    ensures Aligned(c) && InBounds(c, BoardWidth, BoardHeight)
  {
    CellOfOnBoard(draw, BoardWidth, BoardHeight);
    CellOf(draw)
  }

  class MainScene {
    var snakeBody: seq<Pos>
    var direction: Direction
    var nextDirection: Direction
    var speed: int
    var baseSpeed: int
    var speedBoostActive: bool
    var score: int
    var food: Pos
    var isPaused: bool
    var moveTime: int
    /** Whether a restart of the scene has been asked for. */
    var restartRequested: bool

    ghost predicate Valid()
      reads this
    {
      && |snakeBody| > 0
      && nextDirection != Opposite(direction)
      && MinBaseSpeed <= baseSpeed <= InitialSpeed && baseSpeed % SpeedStep == 0
      && speed == EffectiveSpeed(baseSpeed, speedBoostActive)
      && score >= 0 && score % PointsPerFruit == 0
    }

    /** The constructor followed by `create`. */
    constructor ()
      ensures Valid()
      ensures snakeBody == InitialBody && food == InitialFood
      ensures direction == Right && nextDirection == Right
      ensures speed == InitialSpeed && baseSpeed == InitialSpeed && !speedBoostActive
      ensures score == 0 && !isPaused && moveTime == 0 && !restartRequested
    {
      speed := InitialSpeed;
      baseSpeed := InitialSpeed;
      moveTime := 0;
      direction := Right;
      nextDirection := Right;
      speedBoostActive := false;
      snakeBody := InitialBody;
      food := InitialFood;
      score := 0;
      isPaused := false;
      restartRequested := false;
    }

    /** `create` run again by a restart: body, food, score and pause are
        reset; the directions, speeds, boost and move time carry over. */
    method Create()
      requires Valid()
      modifies this`snakeBody, this`food, this`score, this`isPaused, this`restartRequested
      ensures Valid()
      ensures snakeBody == InitialBody && food == InitialFood && score == 0 && !isPaused
      ensures !restartRequested
    {
      snakeBody := InitialBody;
      food := InitialFood;
      score := 0;
      isPaused := false;
      restartRequested := false;
    }

    /** One frame at `time`; `foodDraw` is the column and row a meal in this
        frame would move the food to. */
    method Update(time: int, input: Input, foodDraw: Pos)
      requires Valid()
      requires 0 <= foodDraw.x < FoodColumns && 0 <= foodDraw.y < FoodRows
      modifies this
      ensures Valid()
      ensures isPaused == (old(isPaused) != input.spaceJustDown)
      ensures isPaused ==>
        && snakeBody == old(snakeBody) && direction == old(direction) && nextDirection == old(nextDirection)
        && speed == old(speed) && baseSpeed == old(baseSpeed) && speedBoostActive == old(speedBoostActive)
        && score == old(score) && food == old(food) && moveTime == old(moveTime)
        && restartRequested == old(restartRequested)
      ensures !isPaused ==>
        var pending := Turned(input.cursors, old(direction), old(nextDirection));
        && (time < old(moveTime) ==>
              && snakeBody == old(snakeBody) && score == old(score) && food == old(food)
              && baseSpeed == old(baseSpeed) && moveTime == old(moveTime)
              && direction == old(direction) && nextDirection == pending
              && speedBoostActive == (input.shift || input.x)
              && restartRequested == old(restartRequested))
        && (time >= old(moveTime) ==>
              var head := Shift(old(snakeBody)[0], pending, CellSize);
              var o := Classify(head, old(snakeBody), BoardWidth, BoardHeight, [], old(food));
              && direction == pending && nextDirection == pending
              && speedBoostActive == (input.shift || input.x)
              && moveTime == time + speed
              && snakeBody == NextBody(o, head, old(snakeBody))
              && restartRequested == (old(restartRequested) || EndsSession(o))
              && score == old(score) + (if o.Ate? then PointsPerFruit else 0)
              && food == (if o.Ate? then FoodCell(foodDraw) else old(food))
              && baseSpeed == (if o.Ate? then BoostedNextBaseSpeed(old(baseSpeed), speedBoostActive)
                               else old(baseSpeed)))
    {
      if input.spaceJustDown {
        isPaused := !isPaused;
      }
      if isPaused {
        return;
      }
      HandleInput(input);
      if time >= moveTime {
        MoveSnake(foodDraw);
        moveTime := time + speed;
      }
    }

    /** The keys of a running frame: the boost keys set the speed in
        effect; the first held arrow key, tested left, right, up, down,
        that does not reverse the committed direction becomes pending. */
    method HandleInput(input: Input)
      requires Valid()
      modifies this`speed, this`speedBoostActive, this`nextDirection
      ensures Valid()
      ensures speedBoostActive == (input.shift || input.x)
      ensures nextDirection == Turned(input.cursors, direction, old(nextDirection))
    {
      if input.shift || input.x {
        speed := baseSpeed / BoostDivisor;
        speedBoostActive := true;
      } else {
        speed := baseSpeed;
        speedBoostActive := false;
      }
      var keys := input.cursors;
      if keys.left && direction != Right {
        nextDirection := Left;
      } else if keys.right && direction != Left {
        nextDirection := Right;
      } else if keys.up && direction != Down {
        nextDirection := Up;
      } else if keys.down && direction != Up {
        nextDirection := Down;
      }
    }

    /** One move step: commit the pending direction, then a wall or body
        hit asks for a restart and changes nothing else; otherwise the head
        is prepended and either the food is eaten (food moved to the drawn
        cell, 10 points, the speed-up) or the tail is dropped. */
    method MoveSnake(foodDraw: Pos)
      requires Valid()
      requires 0 <= foodDraw.x < FoodColumns && 0 <= foodDraw.y < FoodRows
      modifies this`direction, this`snakeBody, this`food, this`score, this`baseSpeed, this`speed,
               this`restartRequested
      ensures Valid()
      ensures direction == old(nextDirection)
      ensures var head := Shift(old(snakeBody)[0], direction, CellSize);
              var o := Classify(head, old(snakeBody), BoardWidth, BoardHeight, [], old(food));
              && snakeBody == NextBody(o, head, old(snakeBody))
              && restartRequested == (old(restartRequested) || EndsSession(o))
              && score == old(score) + (if o.Ate? then PointsPerFruit else 0)
              && food == (if o.Ate? then FoodCell(foodDraw) else old(food))
              && baseSpeed == (if o.Ate? then BoostedNextBaseSpeed(old(baseSpeed), speedBoostActive)
                               else old(baseSpeed))
    {
      direction := nextDirection;
      var x := snakeBody[0].x;
      var y := snakeBody[0].y;
      match direction {
        case Left => x := x - CellSize;
        case Right => x := x + CellSize;
        case Up => y := y - CellSize;
        case Down => y := y + CellSize;
      }
      if x < 0 || x >= BoardWidth || y < 0 || y >= BoardHeight {
        restartRequested := true;
        return;
      }
      for i := 0 to |snakeBody|
        invariant Pos(x, y) !in snakeBody[..i]
      {
        if x == snakeBody[i].x && y == snakeBody[i].y {
          restartRequested := true;
          return;
        }
      }
      assert snakeBody[..|snakeBody|] == snakeBody;
      assert !OnMole(Pos(x, y), []);
      Advance(Pos(x, y), foodDraw);
    }

    /** The rest of a step whose new head hit nothing: prepend it, then eat
        or drop the tail. */
    method Advance(head: Pos, foodDraw: Pos)
      requires Valid()
      requires 0 <= foodDraw.x < FoodColumns && 0 <= foodDraw.y < FoodRows
      modifies this`snakeBody, this`food, this`score, this`baseSpeed, this`speed
      ensures Valid()
      ensures var o := if head == old(food) then Ate else Moved;
              && snakeBody == NextBody(o, head, old(snakeBody))
              && score == old(score) + (if o.Ate? then PointsPerFruit else 0)
              && food == (if o.Ate? then FoodCell(foodDraw) else old(food))
              && baseSpeed == (if o.Ate? then BoostedNextBaseSpeed(old(baseSpeed), speedBoostActive)
                               else old(baseSpeed))
    {
      snakeBody := [head] + snakeBody;
      if head.x == food.x && head.y == food.y {
        food := Pos(foodDraw.x * CellSize, foodDraw.y * CellSize);
        score := score + PointsPerFruit;
        SpeedUp();
      } else {
        snakeBody := snakeBody[..|snakeBody| - 1];
      }
    }

    /** The meal's speed-up, taken only while the speed in effect is above
        50, keeping the current boost state. */
    method SpeedUp()
      requires Valid()
      modifies this`baseSpeed, this`speed
      ensures Valid()
      ensures baseSpeed == BoostedNextBaseSpeed(old(baseSpeed), speedBoostActive)
    {
      if speed > MinBaseSpeed {
        assert baseSpeed >= MinBaseSpeed + SpeedStep;
        baseSpeed := baseSpeed - SpeedStep;
        speed := if speedBoostActive then baseSpeed / BoostDivisor else baseSpeed;
      }
    }
  }

  /** Because a restart keeps the committed direction, a session restarted
      while heading left runs into its own second segment on the first step
      unless a key turns it first. */
  lemma RestartHeadingLeftEndsAtOnce()
    ensures var head := Shift(InitialBody[0], Left, CellSize);
            Classify(head, InitialBody, BoardWidth, BoardHeight, [], InitialFood) == SelfHit
  {
    assert Shift(InitialBody[0], Left, CellSize) == InitialBody[1];
  }
}

=== FILE: classic_scene.dfy ===
/** The earliest JavaScript iteration: positions in grid units (one unit per
    step, 16-pixel cells on an 800 x 600 board), the arrow keys written
    straight into the direction with no pending latch, a food cell that may
    be absent, and a move interval that drops by 10 every fifth meal. */
module ClassicScene {
  import opened Grid
  import SnakeEntity
  import Scene

  /** Cell edge in pixels and the board in pixels. */
  const GridSize: int := 16
  const BoardWidth: int := 800
  const BoardHeight: int := 600
  /** Whole cells across and down: `floor(800 / 16)`, `floor(600 / 16)`. */
  const Columns: int := BoardWidth / GridSize
  const Rows: int := BoardHeight / GridSize

  const StartSpeed: int := 150
  const FloorSpeed: int := 50
  const SpeedDrop: int := 10
  /** Every time the score reaches a multiple of this, the speed drops. */
  const SpeedUpScore: int := 50

  /** The cell `p` hits in the body, the head (index 0) not counted. */
  predicate OnBodyPastHead(p: Pos, snake: seq<Pos>)
  {
    exists k :: 1 <= k < |snake| && snake[k] == p
  }

  /** The collision test of a step: outside the grid, or on a segment other
      than the head. */
  predicate Collides(p: Pos, snake: seq<Pos>)
  {
    !InBounds(p, Columns, Rows) || OnBodyPastHead(p, snake)
  }

  /** A one-unit step never lands on the head it starts from, so leaving the
      head out of the collision scan changes no outcome. */
  lemma SkippingHeadIsHarmless(snake: seq<Pos>, d: Direction)
    requires |snake| > 0
    ensures OnBodyPastHead(Shift(snake[0], d, 1), snake) <==> Shift(snake[0], d, 1) in snake
  {
    var head := Shift(snake[0], d, 1);
    ShiftThenBack(snake[0], d, 1);
    if head in snake {
      var k :| 0 <= k < |snake| && snake[k] == head;
      assert k != 0;
    }
  }

  /** The first drawn cell the snake does not occupy, if any. */
  function FirstOffSnake(draws: seq<Pos>, snake: seq<Pos>): (r: Option<Pos>)
    ensures r.Some? ==> exists k :: 0 <= k < |draws| && r.value == draws[k] && draws[k] !in snake
                                    && forall j :: 0 <= j < k ==> draws[j] in snake
    ensures r.None? <==> forall k :: 0 <= k < |draws| ==> draws[k] in snake
    decreases |draws|
  {
    if draws == [] then None
    else if draws[0] !in snake then Some(draws[0])
    else
      var r := FirstOffSnake(draws[1..], snake);
      assert forall k :: 1 <= k < |draws| ==> draws[k] == draws[1..][k - 1];
      if r.Some? then
        var k :| 0 <= k < |draws[1..]| && r.value == draws[1..][k] && draws[1..][k] !in snake
                 && forall j :: 0 <= j < k ==> draws[1..][j] in snake;
        assert r.value == draws[k + 1];
        r
      else r
  }

  /** The search returns the first draw it accepts. */
  lemma {:induction false} FirstOffSnakeAt(draws: seq<Pos>, snake: seq<Pos>, k: nat)
    requires k < |draws| && draws[k] !in snake
    requires forall j :: 0 <= j < k ==> draws[j] in snake
    ensures FirstOffSnake(draws, snake) == Some(draws[k])
    decreases k
  {
    if k > 0 {
      FirstOffSnakeAt(draws[1..], snake, k - 1);
    }
  }

  /** The food is drawn against the body as it stands before the new head
      is added, so on a meal it can be placed under the new head itself. */
  lemma FoodMayLandOnNewHead(snake: seq<Pos>, head: Pos, draws: seq<Pos>)
    requires head !in snake && |draws| > 0 && draws[0] == head
    ensures FirstOffSnake(draws, snake) == Some(head)
  {
  }

  /** The interval after a meal that brings the score to `score`: 10 less,
      but not below 50, when the score is a multiple of 50. */
  function NextSpeed(speed: int, score: int): (r: int)
    ensures speed >= FloorSpeed ==> FloorSpeed <= r <= speed
    ensures r < speed <==> score % SpeedUpScore == 0 && speed > FloorSpeed
    ensures r != speed ==> r == SnakeEntity.Max(FloorSpeed, speed - SpeedDrop)
  {
    if score % SpeedUpScore == 0 then SnakeEntity.Max(FloorSpeed, speed - SpeedDrop) else speed
  }

  /** The interval after `meals` meals from the start of a session. */
  function SpeedAfter(meals: nat): int
  {
    if meals == 0 then StartSpeed else NextSpeed(SpeedAfter(meals - 1), Scene.PointsPerFruit * meals)
  }

  /** Every fifth meal takes 10 off the interval until it reaches 50. */
  lemma {:induction false} SpeedSchedule(meals: nat)
    ensures SpeedAfter(meals) == SnakeEntity.Max(FloorSpeed, StartSpeed - SpeedDrop * (meals / 5))
  {
    if meals > 0 {
      SpeedSchedule(meals - 1);
      MealCount(meals);
    }
  }

  /** Meal `meals` brings the score to a multiple of 50 exactly when it is
      a fifth meal, and only then does the count of fifth meals go up. */
  lemma MealCount(meals: nat)
    requires meals > 0
    ensures (Scene.PointsPerFruit * meals) % SpeedUpScore == 0 <==> meals % 5 == 0
    ensures meals / 5 == (meals - 1) / 5 + (if meals % 5 == 0 then 1 else 0)
  {
    var a, b := meals / 5, meals % 5;
    assert meals == 5 * a + b;
    assert Scene.PointsPerFruit * meals == SpeedUpScore * a + 10 * b;
    assert (Scene.PointsPerFruit * meals) % SpeedUpScore == 10 * b;
  }

  /** Adding 10 keeps a multiple of 10 a multiple, and only a multiple
      becomes one. */
  lemma AddTenKeepsMultiple(v: int)
    ensures (v + 10) % 10 == 0 <==> v % 10 == 0
  {
    var q, r := v / 10, v % 10;
    assert v == 10 * q + r && 0 <= r < 10;
    assert v + 10 == 10 * (q + 1) + r;
  }

  /** With no latch, two frames between steps can turn the snake around:
      up while heading right, then left while heading up. */
  lemma DirectSteeringCanReverse()
    ensures var up := Cursors(false, false, true, false);
            var left := Cursors(true, false, false, false);
            var first := Scene.Turned(up, Right, Right);
            Scene.Turned(left, first, first) == Opposite(Right)
  {
  }

  /** Every draw names a cell of the grid, as `floor(random * width)` and
      `floor(random * height)` do. */
  predicate DrawsOnGrid(draws: seq<Pos>)
  {
    forall k :: 0 <= k < |draws| ==> InBounds(draws[k], Columns, Rows)
  }

  class MainScene {
    var snake: seq<Pos>
    var food: Option<Pos>
    var direction: Direction
    var moveTime: int
    var speed: int
    var alive: bool
    var score: int
    /** Whether the one-shot restart on the space bar is armed. */
    var restartArmed: bool

    ghost predicate Valid()
      reads this
    {
      && |snake| > 0 && Distinct(snake)
      && FloorSpeed <= speed <= StartSpeed && speed % SpeedDrop == 0
      && score >= 0 && score % Scene.PointsPerFruit == 0
    }

    /** `create`: three segments heading right from (10, 10) and the first
        food drawn from `draws`. */
    constructor (draws: seq<Pos>)
      requires DrawsOnGrid(draws)
      ensures Valid()
      ensures snake == [Pos(10, 10), Pos(9, 10), Pos(8, 10)]
      ensures food == FirstOffSnake(draws, snake)
      ensures direction == Right && moveTime == 0 && speed == StartSpeed
      ensures alive && score == 0 && !restartArmed
    {
      var start := [];
      for i := 0 to 3
        invariant |start| == i
        invariant forall k :: 0 <= k < i ==> start[k] == Pos(10 - k, 10)
      {
        start := start + [Pos(10 - i, 10)];
      }
      snake := start;
      food := None;
      direction := Right;
      moveTime := 0;
      speed := StartSpeed;
      alive := true;
      score := 0;
      restartArmed := false;
      new;
      var placed := AddFood(draws);
    }

    /** Puts the food on the first drawn cell off the snake; when every draw
        is on the snake the food stays as it was. */
    method AddFood(draws: seq<Pos>) returns (placed: bool)
      requires DrawsOnGrid(draws)
      modifies this`food
      ensures placed <==> FirstOffSnake(draws, snake).Some?
      ensures food == if placed then FirstOffSnake(draws, snake) else old(food)
      ensures placed ==> InBounds(food.value, Columns, Rows) && food.value !in snake
    {
      var validPosition := false;
      var i := 0;
      var x, y := 0, 0;
      while !validPosition && i < |draws|
        invariant 0 <= i <= |draws|
        invariant validPosition ==> i > 0 && Pos(x, y) == draws[i - 1] && Pos(x, y) !in snake
        invariant forall j :: 0 <= j < (if validPosition then i - 1 else i) ==> draws[j] in snake
      {
        validPosition := true;
        x := draws[i].x;
        y := draws[i].y;
        var k := 0;
        while k < |snake|
          invariant 0 <= k <= |snake|
          invariant Pos(x, y) !in snake[..k]
        {
          if snake[k].x == x && snake[k].y == y {
            validPosition := false;
            break;
          }
          k := k + 1;
        }
        if validPosition {
          assert snake[..|snake|] == snake;
        }
        i := i + 1;
      }
      if validPosition {
        FirstOffSnakeAt(draws, snake, i - 1);
        food := Some(Pos(x, y));
      }
      placed := validPosition;
    }

    /** True exactly when (x, y) is off the grid or on a segment other than
        the head. */
    method CheckCollision(x: int, y: int) returns (hit: bool)
      ensures hit <==> Collides(Pos(x, y), snake)
    {
      if x < 0 || y < 0 || x >= Columns || y >= Rows {
        return true;
      }
      var i := 1;
      while i < |snake|
        invariant 1 <= i
        invariant forall k :: 1 <= k < i && k < |snake| ==> snake[k] != Pos(x, y)
      {
        if x == snake[i].x && y == snake[i].y {
          return true;
        }
        i := i + 1;
      }
      return false;
    }

    /** Ends the session and arms the restart key. */
    method GameOver()
      modifies this`alive, this`restartArmed
      ensures !alive && restartArmed
    {
      alive := false;
      restartArmed := true;
    }

    /** One frame at `time`; `draws` feed the food search of a meal in this
        frame. After a game over nothing changes. */
    method Update(time: int, keys: Cursors, draws: seq<Pos>)
      requires Valid() && DrawsOnGrid(draws)
      modifies this
      ensures Valid()
      ensures !old(alive) ==> unchanged(this)
      ensures old(alive) ==>
        && direction == Scene.Turned(keys, old(direction), old(direction))
        && (time < old(moveTime) ==>
              && snake == old(snake) && food == old(food) && score == old(score) && speed == old(speed)
              && moveTime == old(moveTime) && alive && restartArmed == old(restartArmed))
        && (time >= old(moveTime) ==> StepDone(time, old(snake), direction, old(food), old(score), old(speed),
                                               old(moveTime), old(restartArmed), draws))
    {
      if !alive {
        return;
      }
      if keys.left && direction != Right {
        direction := Left;
      } else if keys.right && direction != Left {
        direction := Right;
      } else if keys.up && direction != Down {
        direction := Up;
      } else if keys.down && direction != Up {
        direction := Down;
      }
      if time >= moveTime {
        Step(time, draws);
      }
    }

    /** The state after a step at `time` from the given old state, heading
        `dir`: a collision ends the session and changes nothing else (the
        move time included); otherwise the head is added, a meal scores 10,
        moves the food and may lower the interval, no meal drops the tail,
        and the next step is due `speed` later. */
    ghost predicate StepDone(time: int, snake0: seq<Pos>, dir: Direction, food0: Option<Pos>, score0: int,
                             speed0: int, moveTime0: int, armed0: bool, draws: seq<Pos>)
      requires |snake0| > 0
      reads this
    {
      var head := Shift(snake0[0], dir, 1);
      if Collides(head, snake0) then
        && !alive && restartArmed
        && snake == snake0 && food == food0 && score == score0 && speed == speed0 && moveTime == moveTime0
      else
        var ate := food0 == Some(head);
        && alive && restartArmed == armed0
        && snake == (if ate then [head] + snake0 else [head] + snake0[..|snake0| - 1])
        && score == score0 + (if ate then Scene.PointsPerFruit else 0)
        && speed == (if ate then NextSpeed(speed0, score) else speed0)
        && food == (if ate && FirstOffSnake(draws, snake0).Some? then FirstOffSnake(draws, snake0) else food0)
        && moveTime == time + speed
    }

    /** The move step of a frame whose move time has come. */
    method Step(time: int, draws: seq<Pos>)
      requires Valid() && alive && DrawsOnGrid(draws)
      modifies this`snake, this`food, this`score, this`speed, this`moveTime, this`alive, this`restartArmed
      ensures Valid()
      ensures StepDone(time, old(snake), direction, old(food), old(score), old(speed), old(moveTime),
                       old(restartArmed), draws)
    {
      var headX := snake[0].x;
      var headY := snake[0].y;
      match direction {
        case Left => headX := headX - 1;
        case Right => headX := headX + 1;
        case Up => headY := headY - 1;
        case Down => headY := headY + 1;
      }
      var head := Pos(headX, headY);
      var hit := CheckCollision(headX, headY);
      if hit {
        GameOver();
        return;
      }
      SkippingHeadIsHarmless(snake, direction);
      Advance(time, head, draws);
    }

    /** The rest of a step whose new head hit nothing: a meal scores 10,
        draws the next food against the body as it stands and may lower the
        interval; without a meal the tail is dropped; then the head is
        added and the next step is due `speed` later. */
    method Advance(time: int, head: Pos, draws: seq<Pos>)
      requires Valid() && DrawsOnGrid(draws)
      requires head !in snake
      modifies this`snake, this`food, this`score, this`speed, this`moveTime
      ensures Valid()
      ensures var ate := old(food) == Some(head);
        && snake == (if ate then [head] + old(snake) else [head] + old(snake)[..|old(snake)| - 1])
        && score == old(score) + (if ate then Scene.PointsPerFruit else 0)
        && speed == (if ate then NextSpeed(old(speed), score) else old(speed))
        && food == (if ate && FirstOffSnake(draws, old(snake)).Some? then FirstOffSnake(draws, old(snake))
                    else old(food))
        && moveTime == time + speed
    {
      PrependKeepsDistinct(head, snake);
      var didEat := false;
      if food.Some? && head.x == food.value.x && head.y == food.value.y {
        didEat := true;
        Eat(draws);
      }
      if !didEat {
        snake := snake[..|snake| - 1];
      }
      snake := [head] + snake;
      moveTime := time + speed;
    }

    /** A meal: 10 points, the next food drawn against the body as it
        stands, and a lower interval when the score reaches a multiple of
        50. */
    method Eat(draws: seq<Pos>)
      requires Valid() && DrawsOnGrid(draws)
      modifies this`food, this`score, this`speed
      ensures Valid()
      ensures score == old(score) + Scene.PointsPerFruit
      ensures speed == NextSpeed(old(speed), score)
      ensures food == if FirstOffSnake(draws, snake).Some? then FirstOffSnake(draws, snake) else old(food)
    {
      AddTenKeepsMultiple(score);
      score := score + Scene.PointsPerFruit;
      var placed := AddFood(draws);
      if score % SpeedUpScore == 0 {
        AddTenKeepsMultiple(speed - SpeedDrop);
        speed := SnakeEntity.Max(FloorSpeed, speed - SpeedDrop);
      }
    }
  }
}

=== FILE: fruit.dfy ===
/** The single fruit of the TypeScript iteration: where it may appear and how
    long it stays, a lifetime that shrinks with the fruits already eaten and
    grows with the distance from the snake's head. */
module FruitTimer {
  import opened Grid

  /** Lifetime bounds at full difficulty (milliseconds). */
  const MaxFoodLifetime: real := 5000.0
  const MinFoodLifetime: real := 1500.0
  /** Lifetime bounds before any fruit is eaten. */
  const InitialMaxFoodLifetime: real := 10000.0
  const InitialMinFoodLifetime: real := 5000.0
  /** Distance (in cells) from which a fruit gets the full lifetime. */
  const FoodMaxDistance: real := 20.0
  /** Fruits after which the difficulty stops rising. */
  const MaxFruitsForFullDifficulty: int := 20

  function MinReal(a: real, b: real): real
  {
    if a <= b then a else b
  }

  /** `min(fruitsEaten / 20, 1)`. */
  function DifficultyFactor(fruitsEaten: int): (f: real)
    ensures fruitsEaten >= 0 ==> 0.0 <= f <= 1.0
    ensures f == 1.0 <==> fruitsEaten >= MaxFruitsForFullDifficulty
    ensures fruitsEaten == 0 ==> f == 0.0
  {
    MinReal(fruitsEaten as real / MaxFruitsForFullDifficulty as real, 1.0)
  }

  /** The lower lifetime bound at this difficulty, from 5000 down to 1500. */
  function CurrentMinLifetime(fruitsEaten: int): (r: real)
    ensures fruitsEaten >= 0 ==> MinFoodLifetime <= r <= InitialMinFoodLifetime
    ensures fruitsEaten == 0 ==> r == InitialMinFoodLifetime
    ensures fruitsEaten >= MaxFruitsForFullDifficulty ==> r == MinFoodLifetime
  {
    InitialMinFoodLifetime
      - DifficultyFactor(fruitsEaten) * (InitialMinFoodLifetime - MinFoodLifetime)
  }

  /** The upper lifetime bound at this difficulty, from 10000 down to 5000. */
  function CurrentMaxLifetime(fruitsEaten: int): (r: real)
    ensures fruitsEaten >= 0 ==> MaxFoodLifetime <= r <= InitialMaxFoodLifetime
    ensures fruitsEaten == 0 ==> r == InitialMaxFoodLifetime
    ensures fruitsEaten >= MaxFruitsForFullDifficulty ==> r == MaxFoodLifetime
  {
    InitialMaxFoodLifetime
      - DifficultyFactor(fruitsEaten) * (InitialMaxFoodLifetime - MaxFoodLifetime)
  }

  /** Both bounds only fall as more fruit is eaten. */
  lemma BoundsShrinkWithDifficulty(n1: int, n2: int)
    requires 0 <= n1 <= n2
    ensures CurrentMinLifetime(n2) <= CurrentMinLifetime(n1)
    ensures CurrentMaxLifetime(n2) <= CurrentMaxLifetime(n1)
  {
    assert DifficultyFactor(n1) <= DifficultyFactor(n2);
  }

  /** `min(distance, 20) / 20`. */
  function NormalizedDistance(distance: real): (r: real)
    requires distance >= 0.0
    ensures 0.0 <= r <= 1.0
    ensures r == 1.0 <==> distance >= FoodMaxDistance
  {
    MinReal(distance, FoodMaxDistance) / FoodMaxDistance
  }

  lemma ProductNonNegative(a: real, b: real)
    requires a >= 0.0 && b >= 0.0
    ensures a * b >= 0.0
  {
  }

  lemma SquareNonNegative(a: real)
    ensures a * a >= 0.0
  {
    if a < 0.0 {
      ProductNonNegative(-a, -a);
    } else {
      ProductNonNegative(a, a);
    }
  }

  /** `lo + t * (hi - lo)`: interpolating between two bounds by a fraction
      stays between them. */
  function Lerp(lo: real, hi: real, t: real): (r: real)
    requires 0.0 <= t <= 1.0
    ensures lo <= hi ==> lo <= r <= hi
    ensures t == 1.0 ==> r == hi
    ensures t == 0.0 ==> r == lo
  {
    if lo <= hi then
      ProductNonNegative(t, hi - lo);
      ProductNonNegative(1.0 - t, hi - lo);
      assert (1.0 - t) * (hi - lo) == (hi - lo) - t * (hi - lo);
      lo + t * (hi - lo)
    else
      lo + t * (hi - lo)
  }

  /** The lifetime of a fruit spawned `distance` cells from the head:
      the current bounds interpolated by the normalised distance. */
  function Lifetime(fruitsEaten: int, distance: real): (r: real)
    requires distance >= 0.0
    ensures fruitsEaten >= 0 ==> CurrentMinLifetime(fruitsEaten) <= r <= CurrentMaxLifetime(fruitsEaten)
    ensures fruitsEaten >= 0 ==> MinFoodLifetime <= r <= InitialMaxFoodLifetime
    ensures distance >= FoodMaxDistance ==> r == CurrentMaxLifetime(fruitsEaten)
    ensures distance == 0.0 ==> r == CurrentMinLifetime(fruitsEaten)
  {
    var lo := CurrentMinLifetime(fruitsEaten);
    var hi := CurrentMaxLifetime(fruitsEaten);
    Lerp(lo, hi, NormalizedDistance(distance))
  }

  /** A farther fruit never lives shorter. */
  lemma LifetimeGrowsWithDistance(fruitsEaten: int, d1: real, d2: real)
    requires fruitsEaten >= 0
    requires 0.0 <= d1 <= d2
    ensures Lifetime(fruitsEaten, d1) <= Lifetime(fruitsEaten, d2)
  {
    var span := CurrentMaxLifetime(fruitsEaten) - CurrentMinLifetime(fruitsEaten);
    var t1, t2 := NormalizedDistance(d1), NormalizedDistance(d2);
    ProductNonNegative(t2 - t1, span);
    assert (t2 - t1) * span == t2 * span - t1 * span;
  }

  /** Squared Euclidean distance in cells between two pixel positions. */
  function SquaredCellDistance(p: Pos, q: Pos): (r: real)
    ensures r >= 0.0
  {
    var dx := (p.x - q.x) as real / CellSize as real;
    var dy := (p.y - q.y) as real / CellSize as real;
    SquareNonNegative(dx);
    SquareNonNegative(dy);
    dx * dx + dy * dy
  }

  /** `sqrt` is the square root on the non-negative reals. */
  ghost predicate IsSquareRoot(sqrt: real -> real)
  {
    forall v :: v >= 0.0 ==> sqrt(v) >= 0.0 && sqrt(v) * sqrt(v) == v
  }

  /** A cell the fruit may take: off every segment and off every hazard. */
  predicate FreeCell(cell: Pos, snakeBody: seq<Pos>, moles: seq<Mole>)
  {
    cell !in snakeBody && !OnMole(cell, moles)
  }

  /** Some draw of `draws` names a free cell. */
  predicate AnyFree(draws: seq<Pos>, snakeBody: seq<Pos>, moles: seq<Mole>)
  {
    exists k :: 0 <= k < |draws| && FreeCell(CellOf(draws[k]), snakeBody, moles)
  }

  /** Draw `k` is the first of `draws` whose cell is free. */
  predicate FirstFreeIndex(draws: seq<Pos>, snakeBody: seq<Pos>, moles: seq<Mole>, k: int)
  {
    && 0 <= k < |draws| && FreeCell(CellOf(draws[k]), snakeBody, moles)
    && forall j :: 0 <= j < k ==> !FreeCell(CellOf(draws[j]), snakeBody, moles)
  }

  /** The retry loop of a spawn over a finite supply of draws: the index of
      the first draw whose cell is free, if any. */
  method FirstFreeDraw(draws: seq<Pos>, snakeBody: seq<Pos>, moles: seq<Mole>) returns (valid: bool, i: int)
    ensures valid <==> AnyFree(draws, snakeBody, moles)
    ensures valid ==> 0 <= i < |draws| && FreeCell(CellOf(draws[i]), snakeBody, moles)
                      && forall j :: 0 <= j < i ==> !FreeCell(CellOf(draws[j]), snakeBody, moles)
  {
    valid := false;
    i := 0;
    while !valid && i < |draws|
      invariant 0 <= i <= |draws|
      invariant valid ==> i > 0 && FreeCell(CellOf(draws[i - 1]), snakeBody, moles)
      invariant forall j :: 0 <= j < (if valid then i - 1 else i) ==> !FreeCell(CellOf(draws[j]), snakeBody, moles)
    {
      valid := FreeCell(CellOf(draws[i]), snakeBody, moles);
      i := i + 1;
    }
    if valid {
      i := i - 1;
    }
  }

  class Fruit {
    const width: int
    const height: int

    var position: Pos
    var lifetime: real
    var expiryTime: real
    var distanceToSnake: real

    constructor (width: int, height: int)
      ensures this.width == width && this.height == height
      ensures position == Pos(0, 0)
      ensures lifetime == 0.0 && expiryTime == 0.0 && distanceToSnake == 0.0
    {
      this.width := width;
      this.height := height;
      position := Pos(0, 0);
      lifetime := 0.0;
      expiryTime := 0.0;
      distanceToSnake := 0.0;
    }

    /** Number of whole columns and rows on the board. */
    function Columns(): int
      reads this
    {
      width / CellSize
    }

    function Rows(): int
      reads this
    {
      height / CellSize
    }

    /** Every draw names a column and a row of the board, as
        `Math.floor(Math.random() * columns)` does. */
    predicate DrawsOnBoard(draws: seq<Pos>)
      reads this
    {
      forall k :: 0 <= k < |draws| ==> 0 <= draws[k].x < Columns() && 0 <= draws[k].y < Rows()
    }

    /** The fruit sits on the first free cell among `draws`, with the
        distance to the head `snakeBody[0]`, the lifetime after
        `fruitsEaten` meals and the expiry a spawn at `now` gives it. */
    ghost predicate PlacedFrom(draws: seq<Pos>, snakeBody: seq<Pos>, moles: seq<Mole>, fruitsEaten: int,
                               now: int, sqrt: real -> real)
      reads this
      requires |snakeBody| > 0
    {
      exists k :: FirstFreeIndex(draws, snakeBody, moles, k)
        && position == CellOf(draws[k])
        && distanceToSnake == sqrt(SquaredCellDistance(position, snakeBody[0])) && distanceToSnake >= 0.0
        && lifetime == Lifetime(fruitsEaten, distanceToSnake)
        && expiryTime == now as real + lifetime
    }

    /** Places the fruit on the first drawn cell that is off the snake and
        off every hazard, and starts its timer at `now`. `draws` are the
        random (column, row) picks in order. When no draw is free nothing
        changes and `placed` is false. */
    method Spawn(snakeBody: seq<Pos>, moles: seq<Mole>, fruitsEaten: int, now: int,
                 draws: seq<Pos>, sqrt: real -> real) returns (placed: bool)
      requires |snakeBody| > 0
      requires DrawsOnBoard(draws)
      requires IsSquareRoot(sqrt)
      modifies this`position, this`lifetime, this`expiryTime, this`distanceToSnake
      ensures placed <==> AnyFree(draws, snakeBody, moles)
      ensures !placed ==> unchanged(this)
      ensures placed ==> PlacedFrom(draws, snakeBody, moles, fruitsEaten, now, sqrt)
      ensures placed ==> && FreeCell(position, snakeBody, moles)
                         && Aligned(position)
                         && InBounds(position, width, height)
                         && expiryTime == now as real + lifetime
    {
      var valid, i := FirstFreeDraw(draws, snakeBody, moles);
      if valid {
        CellOfOnBoard(draws[i], width, height);
        PlaceAt(CellOf(draws[i]), snakeBody[0], fruitsEaten, now, sqrt);
        assert position == CellOf(draws[i]);
      }
      placed := valid;
    }

    /** Puts the fruit on `cell` at time `now`, its lifetime set from its
        Euclidean cell distance to `head`. */
    method PlaceAt(cell: Pos, head: Pos, fruitsEaten: int, now: int, sqrt: real -> real)
      requires IsSquareRoot(sqrt)
      modifies this`position, this`lifetime, this`expiryTime, this`distanceToSnake
      ensures position == cell
      ensures distanceToSnake == sqrt(SquaredCellDistance(cell, head)) && distanceToSnake >= 0.0
      ensures lifetime == Lifetime(fruitsEaten, distanceToSnake)
      ensures expiryTime == now as real + lifetime
    {
      var distance := sqrt(SquaredCellDistance(cell, head));
      position := cell;
      distanceToSnake := distance;
      lifetime := Lifetime(fruitsEaten, distance);
      expiryTime := now as real + lifetime;
    }

    /** The fruit has expired once `time` reaches its expiry time. */
    method Update(time: int) returns (expired: bool)
      ensures expired <==> time as real >= expiryTime
    {
      expired := time as real >= expiryTime;
    }

    /** True exactly when the fruit is at (x, y). */
    method CheckCollision(x: int, y: int) returns (hit: bool)
      ensures hit <==> position == Pos(x, y)
    {
      hit := x == position.x && y == position.y;
    }
  }
}

=== FILE: grid.dfy ===
/** Shapes shared by every iteration of the game: grid cells, directions,
    hazards and the arrow-key priority. */
module Grid {

  /** Edge of one grid cell in pixels (`gridSize` of the TypeScript scene and
      of the boosted scene). */
  const CellSize: int := 20

  datatype Option<T> = None | Some(value: T)

  datatype Direction = Left | Right | Up | Down

  /** A body segment, a fruit cell or a hazard cell (`Segment`, `Position`). */
  datatype Pos = Pos(x: int, y: int)

  /** An active hazard: its cell and the time at which it disappears (`Mole`). */
  datatype Mole = Mole(position: Pos, expiryTime: int)

  /** Which arrow keys are held down this frame. */
  datatype Cursors = Cursors(left: bool, right: bool, up: bool, down: bool)

  /** One frame of keyboard state: the arrow keys, whether the space bar
      went down this frame, and whether the two boost keys (shift, X) are
      held. */
  datatype Input = Input(cursors: Cursors, spaceJustDown: bool, shift: bool, x: bool)

  function Opposite(d: Direction): Direction
  {
    match d
    case Left => Right
    case Right => Left
    case Up => Down
    case Down => Up
  }

  /** The string the source uses for a direction. */
  function Name(d: Direction): string
  {
    match d
    case Left => "left"
    case Right => "right"
    case Up => "up"
    case Down => "down"
  }

  /** Reads a direction string; any other string names no direction. */
  function ParseDirection(s: string): (r: Option<Direction>)
    ensures r.Some? ==> Name(r.value) == s
    ensures r.None? ==> forall d: Direction :: Name(d) != s
  {
    if s == "left" then Some(Left)
    else if s == "right" then Some(Right)
    else if s == "up" then Some(Up)
    else if s == "down" then Some(Down)
    else None
  }

  /** Reading back the name of a direction gives that direction. */
  lemma NameRoundTrip(d: Direction)
    ensures ParseDirection(Name(d)) == Some(d)
  {
  }

  function Abs(v: int): int
  {
    if v < 0 then -v else v
  }

  /** Grid distance between two positions (sum of the axis distances). */
  function Manhattan(p: Pos, q: Pos): int
  {
    Abs(p.x - q.x) + Abs(p.y - q.y)
  }

  /** `p` moved by `unit` in direction `d`: left and up decrease a coordinate,
      right and down increase it. */
  function Shift(p: Pos, d: Direction, unit: int): (r: Pos)
    ensures r.x == p.x || r.y == p.y
    ensures unit >= 0 ==> Manhattan(p, r) == unit
    ensures unit != 0 ==> ((d == Left || d == Right) <==> r.y == p.y)
    ensures unit > 0 ==> ((d == Right || d == Down) <==> r.x + r.y > p.x + p.y)
  {
    match d
    case Left => Pos(p.x - unit, p.y)
    case Right => Pos(p.x + unit, p.y)
    case Up => Pos(p.x, p.y - unit)
    case Down => Pos(p.x, p.y + unit)
  }

  /** Moving one way and then the opposite way returns to the start. */
  lemma ShiftThenBack(p: Pos, d: Direction, unit: int)
    ensures Shift(Shift(p, d, unit), Opposite(d), unit) == p
    ensures unit != 0 ==> Shift(p, d, unit) != p
  {
  }

  /** Inside the rectangle [0, width) x [0, height). */
  predicate InBounds(p: Pos, width: int, height: int)
  {
    0 <= p.x < width && 0 <= p.y < height
  }

  predicate Aligned(p: Pos)
  {
    p.x % CellSize == 0 && p.y % CellSize == 0
  }

  /** The pixel cell of a drawn column and row. */
  function CellOf(draw: Pos): Pos
  {
    Pos(draw.x * CellSize, draw.y * CellSize)
  }

  /** A column and row drawn inside the board give an aligned cell on it. */
  lemma CellOfOnBoard(draw: Pos, width: int, height: int)
    requires 0 <= draw.x < width / CellSize && 0 <= draw.y < height / CellSize
    ensures Aligned(CellOf(draw)) && InBounds(CellOf(draw), width, height)
  {
  }

  /** `Math.floor(v / gridSize) * gridSize`: the left (or top) edge of the
      cell that contains `v`, negative values included. */
  function Snap(v: int): (r: int)
    ensures r % CellSize == 0
    ensures r <= v < r + CellSize
  {
    (v / CellSize) * CellSize
  }

  /** Some hazard occupies `p`. */
  predicate OnMole(p: Pos, moles: seq<Mole>)
  {
    exists i :: 0 <= i < |moles| && moles[i].position == p
  }

  /** No two hazards share a cell. */
  predicate MolesDistinct(moles: seq<Mole>)
  {
    forall i, j :: 0 <= i < j < |moles| ==> moles[i].position != moles[j].position
  }

  /** No two segments share a cell. */
  predicate Distinct(s: seq<Pos>)
  {
    forall i, j :: 0 <= i < j < |s| ==> s[i] != s[j]
  }

  /** Prepending a cell the snake does not occupy keeps its cells
      distinct, with or without its last segment. */
  lemma PrependKeepsDistinct(head: Pos, body: seq<Pos>)
    requires |body| > 0 && Distinct(body) && head !in body
    ensures Distinct([head] + body)
    ensures Distinct([head] + body[..|body| - 1])
  {
    var r := [head] + body;
    forall i, j | 0 <= i < j < |r|
      ensures r[i] != r[j]
    {
      assert r[j] == body[j - 1];
      if i > 0 {
        assert r[i] == body[i - 1];
      }
    }
    assert [head] + body[..|body| - 1] == r[..|body|];
  }

  predicate Held(keys: Cursors, d: Direction)
  {
    match d
    case Left => keys.left
    case Right => keys.right
    case Up => keys.up
    case Down => keys.down
  }

  /** Position of a key in the order in which the scenes test them. */
  function Rank(d: Direction): nat
  {
    match d
    case Left => 0
    case Right => 1
    case Up => 2
    case Down => 3
  }

  /** The turn an update takes from the arrow keys: the first held key, in
      the order left, right, up, down, that is not the reverse of `current`. */
  function ChosenTurn(keys: Cursors, current: Direction): (r: Option<Direction>)
    ensures r.Some? ==> Held(keys, r.value) && r.value != Opposite(current)
    ensures r.Some? ==> forall d :: Held(keys, d) && d != Opposite(current) ==> Rank(r.value) <= Rank(d)
    ensures r.None? <==> forall d :: Held(keys, d) ==> d == Opposite(current)
  {
    if keys.left && current != Right then
      assert Held(keys, Left) && Left != Opposite(current); Some(Left)
    else if keys.right && current != Left then
      assert Held(keys, Right) && Right != Opposite(current); Some(Right)
    else if keys.up && current != Down then
      assert Held(keys, Up) && Up != Opposite(current); Some(Up)
    else if keys.down && current != Up then
      assert Held(keys, Down) && Down != Opposite(current); Some(Down)
    else None
  }
}

=== FILE: mole.dfy ===
/** The hazard ("mole") pool of the TypeScript iteration: at most five
    hazards, spawned near the snake's head at a limited rate after a bounded
    search, and removed once their time is up. */
module Moles {
  import opened Grid

  const MaxMoles: int := 5
  /** How long a hazard stays (milliseconds). */
  const MoleLifetime: int := 3000
  /** Least time between two spawn attempts (milliseconds). */
  const MoleSpawnRate: int := 2000
  /** Tries the spawn search makes before it gives up for this tick. */
  const MaxSpawnAttempts: int := 20

  /** What a hazard collision reports: whether one was hit and, if so, the
      centre of its cell. */
  datatype CollisionResult = CollisionResult(collision: bool, position: Option<Pos>)

  /** The hazards still alive at `time` (expiry strictly later), in their
      original order. */
  function Live(moles: seq<Mole>, time: int): (r: seq<Mole>)
    ensures |r| <= |moles|
    ensures forall m :: m in r <==> m in moles && m.expiryTime > time
    decreases |moles|
  {
    if moles == [] then []
    else (if moles[0].expiryTime > time then [moles[0]] else []) + Live(moles[1..], time)
  }

  /** Pruning the entries from index `i` on, one entry at a time from the
      back, as the source's backward loop does. */
  lemma PruneStep(before: seq<Mole>, i: nat, time: int)
    requires i < |before|
    ensures before[..i] + Live(before[i..], time)
         == (if before[i].expiryTime > time then before[..i + 1] else before[..i]) + Live(before[i + 1..], time)
  {
    var rest := Live(before[i + 1..], time);
    assert before[i..][1..] == before[i + 1..];
    assert Live(before[i..], time) == (if before[i].expiryTime > time then [before[i]] else []) + rest;
    if before[i].expiryTime > time {
      assert before[..i + 1] == before[..i] + [before[i]];
      assert before[..i] + ([before[i]] + rest) == (before[..i] + [before[i]]) + rest;
    } else {
      assert [] + rest == rest;
    }
  }

  /** A cell no hazard of `moles` is on stays free of every hazard still
      alive. */
  lemma LiveAvoids(cell: Pos, moles: seq<Mole>, time: int)
    requires forall k :: 0 <= k < |moles| ==> moles[k].position != cell
    ensures forall k :: 0 <= k < |Live(moles, time)| ==> Live(moles, time)[k].position != cell
  {
    var live := Live(moles, time);
    forall k | 0 <= k < |live|
      ensures live[k].position != cell
    {
      assert live[k] in moles;
    }
  }

  /** Pruning never puts two hazards on one cell. */
  lemma {:induction false} LiveKeepsDistinct(moles: seq<Mole>, time: int)
    requires MolesDistinct(moles)
    ensures MolesDistinct(Live(moles, time))
    decreases |moles|
  {
    if moles != [] {
      var tail := moles[1..];
      var rest := Live(tail, time);
      assert MolesDistinct(tail) by {
        forall i, j | 0 <= i < j < |tail|
          ensures tail[i].position != tail[j].position
        {
          assert tail[i] == moles[i + 1] && tail[j] == moles[j + 1];
        }
      }
      LiveKeepsDistinct(tail, time);
      if moles[0].expiryTime > time {
        forall k | 0 <= k < |tail|
          ensures tail[k].position != moles[0].position
        {
          assert tail[k] == moles[k + 1];
        }
        LiveAvoids(moles[0].position, tail, time);
        var r := [moles[0]] + rest;
        assert Live(moles, time) == r;
        forall i, j | 0 <= i < j < |r|
          ensures r[i].position != r[j].position
        {
          assert r[j] == rest[j - 1];
          if i > 0 {
            assert r[i] == rest[i - 1];
          }
        }
      } else {
        assert Live(moles, time) == rest;
      }
    }
  }

  /** The cell a spawn attempt proposes: the head moved by a drawn offset
      (the source's `cos(angle) * distance * gridSize` and `sin(...)`, rounded
      down) and snapped down to the grid. */
  function Candidate(head: Pos, offset: Pos): (c: Pos)
    ensures Aligned(c)
    ensures c.x <= head.x + offset.x < c.x + CellSize
    ensures c.y <= head.y + offset.y < c.y + CellSize
  {
    Pos(Snap(head.x + offset.x), Snap(head.y + offset.y))
  }

  /** A cell the search accepts: on the board, off the snake and off every
      hazard. */
  predicate Acceptable(c: Pos, snakeBody: seq<Pos>, moles: seq<Mole>, width: int, height: int)
  {
    InBounds(c, width, height) && c !in snakeBody && !OnMole(c, moles)
  }

  /** The first acceptable candidate among the drawn offsets, if any. */
  function FirstFree(head: Pos, offsets: seq<Pos>, snakeBody: seq<Pos>, moles: seq<Mole>,
                     width: int, height: int): (r: Option<Pos>)
    ensures r.Some? ==> Acceptable(r.value, snakeBody, moles, width, height) && Aligned(r.value)
    ensures r.Some? ==> exists k :: 0 <= k < |offsets| && r.value == Candidate(head, offsets[k])
    ensures r.None? <==>
      forall k :: 0 <= k < |offsets| ==> !Acceptable(Candidate(head, offsets[k]), snakeBody, moles, width, height)
    decreases |offsets|
  {
    if offsets == [] then None
    else if Acceptable(Candidate(head, offsets[0]), snakeBody, moles, width, height) then
      Some(Candidate(head, offsets[0]))
    else
      var r := FirstFree(head, offsets[1..], snakeBody, moles, width, height);
      assert forall k :: 1 <= k < |offsets| ==> offsets[k] == offsets[1..][k - 1];
      r
  }

  /** The search returns the candidate of the first accepted attempt. */
  lemma {:induction false} FirstFreeAt(head: Pos, offsets: seq<Pos>, snakeBody: seq<Pos>, moles: seq<Mole>,
                                       width: int, height: int, k: nat)
    requires k < |offsets|
    requires Acceptable(Candidate(head, offsets[k]), snakeBody, moles, width, height)
    requires forall j :: 0 <= j < k ==> !Acceptable(Candidate(head, offsets[j]), snakeBody, moles, width, height)
    ensures FirstFree(head, offsets, snakeBody, moles, width, height) == Some(Candidate(head, offsets[k]))
    decreases k
  {
    if k > 0 {
      FirstFreeAt(head, offsets[1..], snakeBody, moles, width, height, k - 1);
    }
  }

  /** The pool after one spawn attempt at time `now`: unchanged when the
      snake is empty or no attempt is accepted, otherwise one hazard more. */
  function AfterSpawn(moles: seq<Mole>, snakeBody: seq<Pos>, now: int, offsets: seq<Pos>,
                      width: int, height: int): (r: seq<Mole>)
    ensures |moles| <= |r| <= |moles| + 1
    ensures r[..|moles|] == moles
    ensures snakeBody == [] ==> r == moles
    ensures |r| > |moles| ==>
      && Acceptable(r[|moles|].position, snakeBody, moles, width, height)
      && Aligned(r[|moles|].position)
      && r[|moles|].expiryTime == now + MoleLifetime
  {
    if snakeBody == [] then moles
    else match FirstFree(snakeBody[0], offsets, snakeBody, moles, width, height)
      case None => moles
      case Some(c) => moles + [Mole(c, now + MoleLifetime)]
  }

  /** Every hazard of a well-placed pool is on the board, on the grid and
      alone in its cell. */
  ghost predicate WellPlaced(moles: seq<Mole>, width: int, height: int)
  {
    && MolesDistinct(moles)
    && forall m :: m in moles ==> InBounds(m.position, width, height) && Aligned(m.position)
  }

  /** A spawn keeps the pool well placed, and so does pruning. */
  lemma {:induction false} SpawnAndPruneKeepPlacement(moles: seq<Mole>, snakeBody: seq<Pos>, now: int,
                                                      offsets: seq<Pos>, width: int, height: int, time: int)
    requires WellPlaced(moles, width, height)
    ensures WellPlaced(AfterSpawn(moles, snakeBody, now, offsets, width, height), width, height)
    ensures WellPlaced(Live(moles, time), width, height)
  {
    var r := AfterSpawn(moles, snakeBody, now, offsets, width, height);
    if |r| > |moles| {
      assert r == moles + [r[|moles|]];
      forall i, j | 0 <= i < j < |r|
        ensures r[i].position != r[j].position
      {
        if j == |moles| {
          assert r[i] == moles[i];
        }
      }
    } else {
      assert r == r[..|moles|];
    }
    LiveKeepsDistinct(moles, time);
  }

  class MoleManager {
    const width: int
    const height: int

    var moles: seq<Mole>
    var nextMoleTime: int

    ghost predicate Valid()
      reads this
    {
      |moles| <= MaxMoles && WellPlaced(moles, width, height)
    }

    constructor (width: int, height: int)
      ensures Valid()
      ensures this.width == width && this.height == height
      ensures moles == [] && nextMoleTime == 0
    {
      this.width := width;
      this.height := height;
      moles := [];
      nextMoleTime := 0;
    }

    /** Tries up to twenty drawn offsets around the head and adds a hazard,
        expiring at `now + 3000`, on the first acceptable one. */
    method SpawnMole(snakeBody: seq<Pos>, now: int, offsets: seq<Pos>)
      requires |offsets| == MaxSpawnAttempts
      modifies this`moles
      ensures moles == AfterSpawn(old(moles), snakeBody, now, offsets, width, height)
    {
      if |snakeBody| == 0 {
        return;
      }
      var head := snakeBody[0];
      var x, y := 0, 0;
      var validPosition := false;
      var attempts := 0;
      while !validPosition && attempts < MaxSpawnAttempts
        invariant 0 <= attempts <= MaxSpawnAttempts
        invariant validPosition ==>
          && attempts > 0
          && Pos(x, y) == Candidate(head, offsets[attempts - 1])
          && Acceptable(Pos(x, y), snakeBody, moles, width, height)
        invariant forall k :: 0 <= k < (if validPosition then attempts - 1 else attempts) ==>
          !Acceptable(Candidate(head, offsets[k]), snakeBody, moles, width, height)
      {
        attempts := attempts + 1;
        var offset := offsets[attempts - 1];
        x := Snap(head.x + offset.x);
        y := Snap(head.y + offset.y);
        if x < 0 || x >= width || y < 0 || y >= height {
          continue;
        }
        validPosition := Pos(x, y) !in snakeBody;
        if validPosition {
          validPosition := !OnMole(Pos(x, y), moles);
        }
      }
      if validPosition {
        FirstFreeAt(head, offsets, snakeBody, moles, width, height, attempts - 1);
        moles := moles + [Mole(Pos(x, y), now + MoleLifetime)];
      }
    }

    /** One frame: a spawn attempt when the spawn time has come and the pool
        is not full (the next attempt is then due `2000` later whether or not
        a hazard was placed), followed by the removal of every hazard whose
        expiry time `time` has reached. */
    method Update(time: int, now: int, snakeBody: seq<Pos>, offsets: seq<Pos>)
      requires Valid()
      requires |offsets| == MaxSpawnAttempts
      modifies this`moles, this`nextMoleTime
      ensures Valid()
      ensures var spawning := time >= old(nextMoleTime) && |old(moles)| < MaxMoles;
        && nextMoleTime == (if spawning then time + MoleSpawnRate else old(nextMoleTime))
        && moles == Live(if spawning then AfterSpawn(old(moles), snakeBody, now, offsets, width, height)
                         else old(moles), time)
    {
      if time >= nextMoleTime && |moles| < MaxMoles {
        SpawnMole(snakeBody, now, offsets);
        nextMoleTime := time + MoleSpawnRate;
      }
      SpawnAndPruneKeepPlacement(old(moles), snakeBody, now, offsets, width, height, time);
      SpawnAndPruneKeepPlacement(moles, snakeBody, now, offsets, width, height, time);
      RemoveExpired(time);
    }

    /** The backward pass of `update` that splices out every hazard whose
        expiry time `time` has reached. */
    method RemoveExpired(time: int)
      modifies this`moles
      ensures moles == Live(old(moles), time)
    {
      ghost var before := moles;
      var i := |moles|;
      while i > 0
        invariant 0 <= i <= |before|
        invariant moles == before[..i] + Live(before[i..], time)
      {
        i := i - 1;
        PruneStep(before, i, time);
        ghost var rest := Live(before[i + 1..], time);
        assert moles == before[..i + 1] + rest;
        if time >= moles[i].expiryTime {
          assert moles[..i] == before[..i] && moles[i + 1..] == rest;
          moles := moles[..i] + moles[i + 1..];
        }
      }
      assert before[0..] == before;
    }

    /** Whether a hazard is at (x, y) and, if so, the centre of its cell. */
    method CheckCollision(x: int, y: int) returns (r: CollisionResult)
      ensures r.collision <==> OnMole(Pos(x, y), moles)
      ensures r.collision ==> r.position == Some(Pos(x + CellSize / 2, y + CellSize / 2))
      ensures !r.collision ==> r.position == None
    {
      for i := 0 to |moles|
        invariant forall k :: 0 <= k < i ==> moles[k].position != Pos(x, y)
      {
        if x == moles[i].position.x && y == moles[i].position.y {
          return CollisionResult(true, Some(Pos(moles[i].position.x + CellSize / 2,
                                                moles[i].position.y + CellSize / 2)));
        }
      }
      return CollisionResult(false, None);
    }
  }
}

=== FILE: scene.dfy ===
/** The scene of the TypeScript iteration: one move step (commit the pending
    direction, test walls, self and hazards, then grow or shift) and the
    per-frame update with its pause and end gates and its move timer. */
module Scene {
  import opened Grid
  import opened SnakeEntity
  import opened FruitTimer
  import opened Moles

  /** Score for one fruit. */
  const PointsPerFruit: int := 10

  /** What one move step runs into, tested in the order the step tests. */
  datatype Outcome = WallHit | SelfHit | MoleHit | Ate | Moved

  /** The outcome of moving the head to `head`: the walls first, then the
      whole current body (tail included), then the hazards, then the fruit. */
  function Classify(head: Pos, body: seq<Pos>, width: int, height: int,
                    moles: seq<Mole>, fruit: Pos): (o: Outcome)
    ensures o == WallHit <==> !InBounds(head, width, height)
    ensures o == SelfHit <==> InBounds(head, width, height) && head in body
    ensures o == MoleHit <==> InBounds(head, width, height) && head !in body && OnMole(head, moles)
    ensures o == Ate <==> InBounds(head, width, height) && head !in body && !OnMole(head, moles) && head == fruit
  {
    if !InBounds(head, width, height) then WallHit
    else if head in body then SelfHit
    else if OnMole(head, moles) then MoleHit
    else if head == fruit then Ate
    else Moved
  }

  /** The outcomes that end the session. */
  predicate EndsSession(o: Outcome)
  {
    o.WallHit? || o.SelfHit? || o.MoleHit?
  }

  /** The body after a step with outcome `o`: untouched by a wall or self
      hit, the new head prepended on a hazard hit or a meal, and otherwise
      the new head prepended and the last segment dropped. */
  function NextBody(o: Outcome, head: Pos, body: seq<Pos>): (r: seq<Pos>)
    requires |body| > 0
    ensures |r| == |body| + (if o.MoleHit? || o.Ate? then 1 else 0)
    ensures o.WallHit? || o.SelfHit? ==> r == body
    ensures o.MoleHit? || o.Ate? ==> r[0] == head && r[1..] == body
    ensures o.Moved? ==> r[0] == head && r[1..] == body[..|body| - 1]
  {
    match o
    case WallHit => body
    case SelfHit => body
    case MoleHit => [head] + body
    case Ate => [head] + body
    case Moved => ([head] + body)[..|body|]
  }

  /** Consecutive segments are one cell apart. */
  ghost predicate Chain(body: seq<Pos>)
  {
    forall i :: 0 <= i < |body| - 1 ==> Manhattan(body[i], body[i + 1]) == CellSize
  }

  /** Prepending a free cell next to the head keeps the snake in one piece
      and its cells distinct, with or without the last segment. */
  lemma GrowKeepsSnakeWhole(head: Pos, body: seq<Pos>)
    requires |body| > 0 && Chain(body) && Distinct(body)
    requires Manhattan(body[0], head) == CellSize && head !in body
    ensures Chain([head] + body) && Distinct([head] + body)
    ensures Chain([head] + body[..|body| - 1]) && Distinct([head] + body[..|body| - 1])
  {
    var r := [head] + body;
    forall i | 0 <= i < |r| - 1
      ensures Manhattan(r[i], r[i + 1]) == CellSize
    {
      if i > 0 {
        assert r[i] == body[i - 1] && r[i + 1] == body[i];
      }
    }
    PrependKeepsDistinct(head, body);
    assert [head] + body[..|body| - 1] == r[..|body|];
  }

  /** A step keeps the snake in one piece and never puts two segments on one
      cell, whatever the outcome. */
  lemma StepKeepsSnakeWhole(body: seq<Pos>, d: Direction, width: int, height: int,
                            moles: seq<Mole>, fruit: Pos)
    requires |body| > 0 && Chain(body) && Distinct(body)
    ensures var head := Shift(body[0], d, CellSize);
            var r := NextBody(Classify(head, body, width, height, moles, fruit), head, body);
            |r| > 0 && Chain(r) && Distinct(r)
  {
    var head := Shift(body[0], d, CellSize);
    if head !in body {
      GrowKeepsSnakeWhole(head, body);
      assert ([head] + body)[..|body|] == [head] + body[..|body| - 1];
    }
  }

  /** The self test looks at the whole current body: stepping onto the cell
      the tail is about to leave still ends the session. */
  lemma TailCellIsFatal(body: seq<Pos>, d: Direction, width: int, height: int,
                        moles: seq<Mole>, fruit: Pos)
    requires |body| > 0
    requires InBounds(Shift(body[0], d, CellSize), width, height)
    requires Shift(body[0], d, CellSize) == body[|body| - 1]
    ensures Classify(Shift(body[0], d, CellSize), body, width, height, moles, fruit) == SelfHit
  {
  }

  /** From the starting body heading right on an 800 x 600 board, a step
      that meets nothing moves every segment one cell to the right. */
  lemma FirstStepFromStart()
    ensures var body := [Pos(400, 300), Pos(380, 300), Pos(360, 300)];
            var head := Shift(body[0], Right, CellSize);
            var o := Classify(head, body, 800, 600, [], Pos(0, 0));
            o == Moved && NextBody(o, head, body) == [Pos(420, 300), Pos(400, 300), Pos(380, 300)]
  {
    var body := [Pos(400, 300), Pos(380, 300), Pos(360, 300)];
    assert !OnMole(Pos(420, 300), []);
    assert Pos(420, 300) !in body;
  }

  /** The direction pending after one frame's arrow keys: the chosen turn,
      if any, otherwise the one already pending. */
  function Turned(keys: Cursors, committed: Direction, pending: Direction): (r: Direction)
    ensures r != pending ==> Held(keys, r) && r != Opposite(committed)
    ensures pending != Opposite(committed) ==> r != Opposite(committed)
  {
    match ChosenTurn(keys, committed)
    case Some(d) => d
    case None => pending
  }

  class MainScene {
    const width: int
    const height: int
    const snake: Snake
    const fruit: Fruit
    const mole: MoleManager

    /** Whether the death explosion is playing. */
    var explosionActive: bool
    var score: int
    var fruitsEaten: int
    var isPaused: bool
    var gameEnded: bool
    /** Time at or after which the next move step is due. */
    var moveTime: int
    /** Whether a restart of the scene has been asked for or scheduled. */
    var restartPending: bool

    ghost predicate Valid()
      reads this, snake, fruit, mole
    {
      && snake.Valid() && mole.Valid()
      && snake.width == width && snake.height == height
      && fruit.width == width && fruit.height == height
      && mole.width == width && mole.height == height
      && |snake.body| > 0 && Chain(snake.body) && Distinct(snake.body)
      && fruitsEaten >= 0 && score == PointsPerFruit * fruitsEaten
      && (explosionActive ==> gameEnded)
    }

    /** The scene as `create` leaves it, the first fruit placed at `now`
        from `draws`. */
    constructor (width: int, height: int, now: int, draws: seq<Pos>, sqrt: real -> real)
      requires IsSquareRoot(sqrt)
      requires forall k :: 0 <= k < |draws| ==>
                 0 <= draws[k].x < width / CellSize && 0 <= draws[k].y < height / CellSize
      ensures Valid() && fresh(snake) && fresh(fruit) && fresh(mole)
      ensures this.width == width && this.height == height
      ensures score == 0 && fruitsEaten == 0 && moveTime == 0
      ensures !isPaused && !gameEnded && !explosionActive && !restartPending
      ensures snake.body == [Pos(400, 300), Pos(380, 300), Pos(360, 300)]
      ensures snake.direction == Right && snake.nextDirection == Right && snake.speed == InitialSpeed
      ensures mole.moles == [] && mole.nextMoleTime == 0
      ensures AnyFree(draws, snake.body, []) ==>
                && fruit.PlacedFrom(draws, snake.body, [], 0, now, sqrt)
                && FreeCell(fruit.position, snake.body, []) && InBounds(fruit.position, width, height)
    {
      this.width := width;
      this.height := height;
      snake := new Snake(width, height);
      fruit := new Fruit(width, height);
      mole := new MoleManager(width, height);
      explosionActive := false;
      score := 0;
      fruitsEaten := 0;
      isPaused := false;
      gameEnded := false;
      moveTime := 0;
      restartPending := false;
      new;
      var placed := fruit.Spawn(snake.body, mole.moles, fruitsEaten, now, draws, sqrt);
    }

    /** The scene is as one move step leaves it, taken from `body0` in the
        direction `heading` with the fruit at `fruitAt`, from a running
        session with the given counters, base speed and restart flag. A
        step without a meal leaves the fruit where it was. */
    ghost predicate Stepped(body0: seq<Pos>, heading: Direction, fruitAt: Pos, fruitsEaten0: int,
                            score0: int, baseSpeed0: int, restart0: bool)
      reads this, snake, fruit, mole
      requires |body0| > 0
    {
      var head := Shift(body0[0], heading, CellSize);
      var o := Classify(head, body0, width, height, mole.moles, fruitAt);
      && snake.direction == heading
      && snake.body == NextBody(o, head, body0)
      && gameEnded == EndsSession(o)
      && fruitsEaten == fruitsEaten0 + (if o.Ate? then 1 else 0)
      && score == score0 + (if o.Ate? then PointsPerFruit else 0)
      && explosionActive == o.MoleHit?
      && restartPending == (restart0 || o.WallHit? || o.SelfHit?)
      && snake.baseSpeed == (if o.Ate? then NextBaseSpeed(baseSpeed0) else baseSpeed0)
      && (!o.Ate? ==> fruit.position == fruitAt)
    }

    /** Ends the session; without an explosion playing, a restart is
        scheduled. */
    method GameOver()
      modifies this`gameEnded, this`restartPending
      ensures gameEnded
      ensures restartPending == (old(restartPending) || !explosionActive)
    {
      gameEnded := true;
      if !explosionActive {
        restartPending := true;
      }
    }

    /** One move step, fruit respawns drawn from `draws` at time `now`. */
    method MoveSnake(now: int, draws: seq<Pos>, sqrt: real -> real)
      requires Valid()
      requires IsSquareRoot(sqrt) && fruit.DrawsOnBoard(draws)
      modifies this`gameEnded, this`restartPending, this`explosionActive, this`fruitsEaten, this`score,
               snake, fruit
      ensures Valid()
      ensures old(gameEnded) ==> unchanged(this, snake, fruit)
      ensures !old(gameEnded) ==>
        var head := Shift(old(snake.body)[0], old(snake.nextDirection), CellSize);
        var o := Classify(head, old(snake.body), width, height, mole.moles, old(fruit.position));
        && snake.direction == old(snake.nextDirection)
        && snake.nextDirection == old(snake.nextDirection)
        && snake.body == NextBody(o, head, old(snake.body))
        && snake.visualBody == (if o.WallHit? || o.SelfHit? then old(snake.visualBody)
                                else [ToVisual(head)] + (if o.Moved? then old(snake.visualBody)[..|old(snake.visualBody)| - 1]
                                                         else old(snake.visualBody)))
        && gameEnded == EndsSession(o)
        && fruitsEaten == old(fruitsEaten) + (if o.Ate? then 1 else 0)
        && score == old(score) + (if o.Ate? then PointsPerFruit else 0)
        && explosionActive == o.MoleHit?
        && restartPending == (old(restartPending) || o.WallHit? || o.SelfHit?)
        && snake.baseSpeed == (if o.Ate? then NextBaseSpeed(old(snake.baseSpeed)) else old(snake.baseSpeed))
        && snake.speedBoostActive == old(snake.speedBoostActive)
        && (!o.Ate? ==> unchanged(fruit))
        && (o.Ate? && AnyFree(draws, snake.body, mole.moles) ==>
              && FreeCell(fruit.position, snake.body, mole.moles)
              && InBounds(fruit.position, width, height)
              && fruit.expiryTime == now as real + fruit.lifetime
              && fruit.PlacedFrom(draws, snake.body, mole.moles, fruitsEaten, now, sqrt))
    {
      if gameEnded {
        return;
      }
      snake.ApplyDirection();
      var newHead := snake.Move();
      var hitWall := snake.CheckCollisionWithWalls(newHead.x, newHead.y);
      if hitWall {
        GameOver();
        return;
      }
      var hitSelf := snake.CheckCollisionWithSelf(newHead.x, newHead.y);
      if hitSelf {
        GameOver();
        return;
      }
      var moleCollision := mole.CheckCollision(newHead.x, newHead.y);
      if moleCollision.collision {
        HitMole(newHead);
        return;
      }
      Advance(newHead, now, draws, sqrt);
    }

    /** A step onto a hazard: the head is still prepended, the explosion
        starts and the session ends with no restart yet. */
    method HitMole(newHead: Pos)
      requires Valid() && !explosionActive
      requires Manhattan(snake.body[0], newHead) == CellSize && newHead !in snake.body
      modifies this`explosionActive, this`gameEnded, this`restartPending, snake`body, snake`visualBody
      ensures Valid()
      ensures snake.body == [newHead] + old(snake.body)
      ensures snake.visualBody == [ToVisual(newHead)] + old(snake.visualBody)
      ensures explosionActive && gameEnded && restartPending == old(restartPending)
    {
      GrowKeepsSnakeWhole(newHead, snake.body);
      snake.AddSegment(newHead);
      // the explosion starts where the hazard was hit
      explosionActive := true;
      GameOver();
    }

    /** The rest of a step whose new head hit nothing: the head is
        prepended, then either the fruit is eaten (counter, respawn, score,
        speed-up) or the tail is dropped. */
    method Advance(newHead: Pos, now: int, draws: seq<Pos>, sqrt: real -> real)
      requires Valid()
      requires IsSquareRoot(sqrt) && fruit.DrawsOnBoard(draws)
      requires Manhattan(snake.body[0], newHead) == CellSize && newHead !in snake.body
      requires InBounds(newHead, width, height) && !OnMole(newHead, mole.moles)
      modifies this`fruitsEaten, this`score, snake, fruit
      ensures Valid()
      ensures var o := if newHead == old(fruit.position) then Ate else Moved;
        && snake.body == NextBody(o, newHead, old(snake.body))
        && snake.visualBody == [ToVisual(newHead)] + (if o.Ate? then old(snake.visualBody)
                                                      else old(snake.visualBody)[..|old(snake.visualBody)| - 1])
        && fruitsEaten == old(fruitsEaten) + (if o.Ate? then 1 else 0)
        && score == old(score) + (if o.Ate? then PointsPerFruit else 0)
        && snake.baseSpeed == (if o.Ate? then NextBaseSpeed(old(snake.baseSpeed)) else old(snake.baseSpeed))
        && (!o.Ate? ==> unchanged(fruit))
        && (o.Ate? && AnyFree(draws, snake.body, mole.moles) ==>
              && FreeCell(fruit.position, snake.body, mole.moles)
              && InBounds(fruit.position, width, height)
              && fruit.expiryTime == now as real + fruit.lifetime
              && fruit.PlacedFrom(draws, snake.body, mole.moles, fruitsEaten, now, sqrt))
      ensures snake.direction == old(snake.direction) && snake.nextDirection == old(snake.nextDirection)
      ensures snake.speedBoostActive == old(snake.speedBoostActive)
    {
      GrowKeepsSnakeWhole(newHead, snake.body);
      snake.AddSegment(newHead);
      var ate := fruit.CheckCollision(newHead.x, newHead.y);
      if ate {
        fruitsEaten := fruitsEaten + 1;
        var placed := fruit.Spawn(snake.body, mole.moles, fruitsEaten, now, draws, sqrt);
        score := score + PointsPerFruit;
        snake.IncreaseSpeed();
      } else {
        var tail := snake.RemoveTail();
      }
    }

    /** One frame at `time`. `explosionOver` says whether the explosion's own
        timer has run out this frame; `expiryDraws` feed the respawn of an
        expired fruit, `offsets` the hazard search and `eatDraws` the respawn
        after a meal. The scene clock reads `time`. */
    method Update(time: int, input: Input, explosionOver: bool, expiryDraws: seq<Pos>,
                  offsets: seq<Pos>, eatDraws: seq<Pos>, sqrt: real -> real)
      requires Valid()
      requires IsSquareRoot(sqrt)
      requires fruit.DrawsOnBoard(expiryDraws) && fruit.DrawsOnBoard(eatDraws)
      requires |offsets| == MaxSpawnAttempts
      modifies this, snake, fruit, mole
      ensures Valid()
      ensures isPaused == (old(isPaused) != input.spaceJustDown)
      ensures isPaused || old(gameEnded) ==>
        && unchanged(snake, fruit, mole)
        && moveTime == old(moveTime) && score == old(score) && fruitsEaten == old(fruitsEaten)
        && gameEnded == old(gameEnded)
        && explosionActive == (old(explosionActive) && !explosionOver)
        && restartPending == (old(restartPending) || (old(explosionActive) && explosionOver))
      ensures !isPaused && !old(gameEnded) ==>
        var spawning := time >= old(mole.nextMoleTime) && |old(mole.moles)| < MaxMoles;
        && snake.speedBoostActive == (input.shift || input.x)
        && mole.nextMoleTime == (if spawning then time + MoleSpawnRate else old(mole.nextMoleTime))
        && mole.moles == Live(if spawning then AfterSpawn(old(mole.moles), old(snake.body), time, offsets, width, height)
                              else old(mole.moles), time)
        && (time < old(moveTime) ==>
              && moveTime == old(moveTime)
              && snake.body == old(snake.body) && !gameEnded && restartPending == old(restartPending)
              && score == old(score) && fruitsEaten == old(fruitsEaten)
              && snake.direction == old(snake.direction)
              && snake.nextDirection == Turned(input.cursors, old(snake.direction), old(snake.nextDirection))
              && snake.baseSpeed == old(snake.baseSpeed))
        && (fruitsEaten == old(fruitsEaten) ==>
              && (time as real < old(fruit.expiryTime) || !AnyFree(expiryDraws, old(snake.body), old(mole.moles))
                  ==> unchanged(fruit))
              && (time as real >= old(fruit.expiryTime) && AnyFree(expiryDraws, old(snake.body), old(mole.moles)) ==>
                  fruit.PlacedFrom(expiryDraws, old(snake.body), old(mole.moles), fruitsEaten, time, sqrt)))
        && (fruitsEaten != old(fruitsEaten) && AnyFree(eatDraws, snake.body, mole.moles) ==>
              && FreeCell(fruit.position, snake.body, mole.moles)
              && InBounds(fruit.position, width, height)
              && fruit.expiryTime == time as real + fruit.lifetime
              && fruit.PlacedFrom(eatDraws, snake.body, mole.moles, fruitsEaten, time, sqrt))
        && (time >= old(moveTime) ==>
              && moveTime == time + snake.speed
              && exists fruitAt ::
                   && (time as real < old(fruit.expiryTime) || !AnyFree(expiryDraws, old(snake.body), old(mole.moles))
                       ==> fruitAt == old(fruit.position))
                   && (time as real >= old(fruit.expiryTime) && AnyFree(expiryDraws, old(snake.body), old(mole.moles)) ==>
                       exists k :: FirstFreeIndex(expiryDraws, old(snake.body), old(mole.moles), k)
                                   && fruitAt == CellOf(expiryDraws[k]))
                   && Stepped(old(snake.body), Turned(input.cursors, old(snake.direction), old(snake.nextDirection)),
                              fruitAt, old(fruitsEaten), old(score), old(snake.baseSpeed), old(restartPending)))
    {
      if input.spaceJustDown {
        isPaused := !isPaused;
      }
      if isPaused || gameEnded {
        if explosionActive {
          if explosionOver {
            explosionActive := false;
            if gameEnded {
              restartPending := true;
            }
          }
        }
        return;
      }
      Run(time, input, expiryDraws, offsets, eatDraws, sqrt);
    }

    /** A frame of a running, unpaused session: the housekeeping, then the
        move step once `time` has reached the move time. */
    method Run(time: int, input: Input, expiryDraws: seq<Pos>, offsets: seq<Pos>, eatDraws: seq<Pos>,
               sqrt: real -> real)
      requires Valid() && !gameEnded
      requires IsSquareRoot(sqrt)
      requires fruit.DrawsOnBoard(expiryDraws) && fruit.DrawsOnBoard(eatDraws)
      requires |offsets| == MaxSpawnAttempts
      modifies this, snake, fruit, mole
      ensures Valid()
      ensures isPaused == old(isPaused)
      ensures var spawning := time >= old(mole.nextMoleTime) && |old(mole.moles)| < MaxMoles;
        && snake.speedBoostActive == (input.shift || input.x)
        && mole.nextMoleTime == (if spawning then time + MoleSpawnRate else old(mole.nextMoleTime))
        && mole.moles == Live(if spawning then AfterSpawn(old(mole.moles), old(snake.body), time, offsets, width, height)
                              else old(mole.moles), time)
        && (time < old(moveTime) ==>
              && moveTime == old(moveTime)
              && snake.body == old(snake.body) && !gameEnded && restartPending == old(restartPending)
              && score == old(score) && fruitsEaten == old(fruitsEaten)
              && snake.direction == old(snake.direction)
              && snake.nextDirection == Turned(input.cursors, old(snake.direction), old(snake.nextDirection))
              && snake.baseSpeed == old(snake.baseSpeed))
        && (fruitsEaten == old(fruitsEaten) ==>
              && (time as real < old(fruit.expiryTime) || !AnyFree(expiryDraws, old(snake.body), old(mole.moles))
                  ==> unchanged(fruit))
              && (time as real >= old(fruit.expiryTime) && AnyFree(expiryDraws, old(snake.body), old(mole.moles)) ==>
                  fruit.PlacedFrom(expiryDraws, old(snake.body), old(mole.moles), fruitsEaten, time, sqrt)))
        && (fruitsEaten != old(fruitsEaten) && AnyFree(eatDraws, snake.body, mole.moles) ==>
              && FreeCell(fruit.position, snake.body, mole.moles)
              && InBounds(fruit.position, width, height)
              && fruit.expiryTime == time as real + fruit.lifetime
              && fruit.PlacedFrom(eatDraws, snake.body, mole.moles, fruitsEaten, time, sqrt))
        && (time >= old(moveTime) ==>
              && moveTime == time + snake.speed
              && exists fruitAt ::
                   && (time as real < old(fruit.expiryTime) || !AnyFree(expiryDraws, old(snake.body), old(mole.moles))
                       ==> fruitAt == old(fruit.position))
                   && (time as real >= old(fruit.expiryTime) && AnyFree(expiryDraws, old(snake.body), old(mole.moles)) ==>
                       exists k :: FirstFreeIndex(expiryDraws, old(snake.body), old(mole.moles), k)
                                   && fruitAt == CellOf(expiryDraws[k]))
                   && Stepped(old(snake.body), Turned(input.cursors, old(snake.direction), old(snake.nextDirection)),
                              fruitAt, old(fruitsEaten), old(score), old(snake.baseSpeed), old(restartPending)))
    {
      Housekeep(time, input, expiryDraws, offsets, sqrt);
      if time >= moveTime {
        ghost var fruitAt := fruit.position;
        assert time as real < old(fruit.expiryTime) || !AnyFree(expiryDraws, old(snake.body), old(mole.moles))
               ==> fruitAt == old(fruit.position);
        Tick(time, eatDraws, sqrt);
      }
    }

    /** The move gate once `time` has reached the move time: one step, then
        the next step is due an interval later. */
    method Tick(time: int, eatDraws: seq<Pos>, sqrt: real -> real)
      requires Valid() && !gameEnded
      requires IsSquareRoot(sqrt) && fruit.DrawsOnBoard(eatDraws)
      modifies this`gameEnded, this`restartPending, this`explosionActive, this`fruitsEaten, this`score,
               this`moveTime, snake, fruit
      ensures Valid()
      ensures moveTime == time + snake.speed && snake.speedBoostActive == old(snake.speedBoostActive)
      ensures Stepped(old(snake.body), old(snake.nextDirection), old(fruit.position), old(fruitsEaten),
                      old(score), old(snake.baseSpeed), old(restartPending))
      ensures fruitsEaten == old(fruitsEaten) ==> unchanged(fruit)
      ensures fruitsEaten != old(fruitsEaten) && AnyFree(eatDraws, snake.body, mole.moles) ==>
              && FreeCell(fruit.position, snake.body, mole.moles)
              && InBounds(fruit.position, width, height)
              && fruit.expiryTime == time as real + fruit.lifetime
              && fruit.PlacedFrom(eatDraws, snake.body, mole.moles, fruitsEaten, time, sqrt)
    {
      MoveSnake(time, eatDraws, sqrt);
      moveTime := time + snake.speed;
    }

    /** The work of a running frame before the move gate: boost, arrow keys,
        visual easing, fruit expiry and the hazard pool. The body and the
        committed direction are left alone. While the session runs no
        explosion is playing (see Valid), so the explosion check the source
        makes here never fires and is not repeated. */
    method Housekeep(time: int, input: Input, expiryDraws: seq<Pos>, offsets: seq<Pos>, sqrt: real -> real)
      requires Valid() && !gameEnded
      requires IsSquareRoot(sqrt) && fruit.DrawsOnBoard(expiryDraws)
      requires |offsets| == MaxSpawnAttempts
      modifies snake, fruit, mole
      ensures Valid()
      ensures var spawning := time >= old(mole.nextMoleTime) && |old(mole.moles)| < MaxMoles;
        && snake.speedBoostActive == (input.shift || input.x)
        && mole.nextMoleTime == (if spawning then time + MoleSpawnRate else old(mole.nextMoleTime))
        && mole.moles == Live(if spawning then AfterSpawn(old(mole.moles), old(snake.body), time, offsets, width, height)
                              else old(mole.moles), time)
        && snake.body == old(snake.body) && snake.direction == old(snake.direction)
        && snake.nextDirection == Turned(input.cursors, old(snake.direction), old(snake.nextDirection))
        && snake.baseSpeed == old(snake.baseSpeed)
        && (time as real < old(fruit.expiryTime) || !AnyFree(expiryDraws, old(snake.body), old(mole.moles))
            ==> unchanged(fruit))
      ensures time as real >= old(fruit.expiryTime) && AnyFree(expiryDraws, old(snake.body), old(mole.moles)) ==>
              fruit.PlacedFrom(expiryDraws, old(snake.body), old(mole.moles), fruitsEaten, time, sqrt)
    {
      snake.SetBoost(input.shift || input.x);
      Steer(input.cursors);
      snake.UpdateVisualPositions();
      Refresh(time, expiryDraws, offsets, sqrt);
    }

    /** The timed pieces of a running frame: an expired fruit respawns from
        `expiryDraws`, then the hazard pool is pruned and may spawn. */
    method Refresh(time: int, expiryDraws: seq<Pos>, offsets: seq<Pos>, sqrt: real -> real)
      requires Valid()
      requires IsSquareRoot(sqrt) && fruit.DrawsOnBoard(expiryDraws)
      requires |offsets| == MaxSpawnAttempts
      modifies fruit, mole
      ensures Valid()
      ensures var spawning := time >= old(mole.nextMoleTime) && |old(mole.moles)| < MaxMoles;
        && mole.nextMoleTime == (if spawning then time + MoleSpawnRate else old(mole.nextMoleTime))
        && mole.moles == Live(if spawning then AfterSpawn(old(mole.moles), snake.body, time, offsets, width, height)
                           else old(mole.moles), time)
      ensures time as real < old(fruit.expiryTime) || !AnyFree(expiryDraws, snake.body, old(mole.moles))
              ==> unchanged(fruit)
      ensures time as real >= old(fruit.expiryTime) && AnyFree(expiryDraws, snake.body, old(mole.moles)) ==>
              fruit.PlacedFrom(expiryDraws, snake.body, old(mole.moles), fruitsEaten, time, sqrt)
    {
      var fruitExpired := fruit.Update(time);
      if fruitExpired {
        var placed := fruit.Spawn(snake.body, mole.moles, fruitsEaten, time, expiryDraws, sqrt);
      }
      mole.Update(time, time, snake.body, offsets);
    }

    /** The arrow keys of one frame, tested left, right, up, down; the first
        held key that does not reverse the committed direction is requested. */
    method Steer(keys: Cursors)
      requires Valid()
      modifies snake`nextDirection
      ensures Valid()
      ensures snake.nextDirection == Turned(keys, snake.direction, old(snake.nextDirection))
    {
      if keys.left && snake.direction != Right {
        NameRoundTrip(Left);
        snake.SetDirection("left");
      } else if keys.right && snake.direction != Left {
        NameRoundTrip(Right);
        snake.SetDirection("right");
      } else if keys.up && snake.direction != Down {
        NameRoundTrip(Up);
        snake.SetDirection("up");
      } else if keys.down && snake.direction != Up {
        NameRoundTrip(Down);
        snake.SetDirection("down");
      }
    }
  }
}

=== FILE: snake.dfy ===
/** The snake entity of the TypeScript iteration: its body, the committed and
    pending directions, the wall and self collision tests and the speed and
    boost arithmetic. */
module SnakeEntity {
  import opened Grid

  const InitialSpeed: int := 200
  const MinBaseSpeed: int := 50
  const SpeedStep: int := 5
  const BoostDivisor: int := 3

  /** Share of the remaining gap a visual segment closes each frame. */
  const SmoothFactor: real := 0.4

  /** The eased on-screen position of one segment. */
  datatype Visual = Visual(x: real, y: real)

  function ToVisual(p: Pos): Visual
  {
    Visual(p.x as real, p.y as real)
  }

  /** One frame of easing of a visual segment toward its logical cell. */
  function Ease(v: Visual, target: Pos): (r: Visual)
    ensures r.x - target.x as real == (1.0 - SmoothFactor) * (v.x - target.x as real)
    ensures r.y - target.y as real == (1.0 - SmoothFactor) * (v.y - target.y as real)
    ensures v == ToVisual(target) ==> r == v
  {
    Visual(v.x + (target.x as real - v.x) * SmoothFactor,
           v.y + (target.y as real - v.y) * SmoothFactor)
  }

  /** The move interval in effect: `floor(baseSpeed / 3)` while boosting,
      `baseSpeed` otherwise. */
  function EffectiveSpeed(baseSpeed: int, boost: bool): (s: int)
    ensures boost ==> BoostDivisor * s <= baseSpeed < BoostDivisor * s + BoostDivisor
    ensures !boost ==> s == baseSpeed
    ensures baseSpeed >= 0 ==> 0 <= s <= baseSpeed
  {
    if boost then baseSpeed / BoostDivisor else baseSpeed
  }

  /** Boosting from the starting base speed of 200 gives a move interval
      of 66. */
  lemma BoostFromStart()
    ensures EffectiveSpeed(InitialSpeed, true) == 66
  {
  }

  /** The base speed after one fruit: five milliseconds faster while above
      the floor of 50, unchanged at the floor. */
  function NextBaseSpeed(b: int): (r: int)
    ensures r == b || r == b - SpeedStep
    ensures r < b <==> b > MinBaseSpeed
    ensures b >= MinBaseSpeed - SpeedStep ==> r >= MinBaseSpeed - SpeedStep
  {
    if b > MinBaseSpeed then b - SpeedStep else b
  }

  /** The base speed of a fresh snake after `meals` fruits. */
  function BaseAfter(meals: nat): int
  {
    if meals == 0 then InitialSpeed else NextBaseSpeed(BaseAfter(meals - 1))
  }

  function Max(a: int, b: int): int
  {
    if a < b then b else a
  }

  /** Every fruit takes five milliseconds off the base speed until it reaches
      50, where it stays. */
  lemma {:induction false} BaseSpeedSchedule(meals: nat)
    ensures BaseAfter(meals) == Max(MinBaseSpeed, InitialSpeed - SpeedStep * meals)
    ensures BaseAfter(meals) % SpeedStep == 0
  {
    if meals > 0 {
      BaseSpeedSchedule(meals - 1);
    }
  }

  /** `setDirection` as a function of the committed direction, the pending
      one and the requested name: a known direction that does not reverse
      the committed one becomes pending; anything else is ignored. */
  function Steered(committed: Direction, pending: Direction, request: string): (r: Direction)
    ensures r != pending ==> ParseDirection(request) == Some(r)
    ensures r != pending ==> r != Opposite(committed)
    ensures (ParseDirection(request).Some? && ParseDirection(request).value != Opposite(committed))
            ==> r == ParseDirection(request).value
  {
    match ParseDirection(request)
    case Some(d) => if d != Opposite(committed) then d else pending
    case None => pending
  }

  /** The pending direction after several frames of input between two steps. */
  function SteerAll(committed: Direction, pending: Direction, requests: seq<string>): Direction
    decreases |requests|
  {
    if requests == [] then pending
    else SteerAll(committed, Steered(committed, pending, requests[0]), requests[1..])
  }

  /** However many requests arrive before the next step, the pending
      direction never reverses the committed one, so committing it never
      turns the snake back onto itself. */
  lemma {:induction false} LatchNeverReverses(committed: Direction, pending: Direction, requests: seq<string>)
    requires pending != Opposite(committed)
    ensures SteerAll(committed, pending, requests) != Opposite(committed)
    decreases |requests|
  {
    if requests != [] {
      LatchNeverReverses(committed, Steered(committed, pending, requests[0]), requests[1..]);
    }
  }

  class Snake {
    /** The game's configured width and height in pixels. */
    const width: int
    const height: int

    var direction: Direction
    var nextDirection: Direction
    var speedBoostActive: bool
    var baseSpeed: int
    var speed: int

    /** Logical segments, head first. */
    var body: seq<Pos>
    /** Eased positions used only for drawing, one per segment. */
    var visualBody: seq<Visual>

    ghost predicate Valid()
      reads this
    {
      && |visualBody| == |body|
      && nextDirection != Opposite(direction)
      && MinBaseSpeed <= baseSpeed <= InitialSpeed
      && baseSpeed % SpeedStep == 0
      && speed == EffectiveSpeed(baseSpeed, speedBoostActive)
    }

    constructor (width: int, height: int)
      ensures Valid()
      ensures this.width == width && this.height == height
      ensures direction == Right && nextDirection == Right && !speedBoostActive
      ensures baseSpeed == InitialSpeed && speed == InitialSpeed
      ensures body == [Pos(400, 300), Pos(380, 300), Pos(360, 300)]
      ensures forall i :: 0 <= i < |body| ==> visualBody[i] == ToVisual(body[i])
    {
      var start := [Pos(400, 300), Pos(380, 300), Pos(360, 300)];
      var visual := [];
      for i := 0 to |start|
        invariant |visual| == i
        invariant forall k :: 0 <= k < i ==> visual[k] == ToVisual(start[k])
      {
        visual := visual + [ToVisual(start[i])];
      }
      this.width := width;
      this.height := height;
      direction := Right;
      nextDirection := Right;
      speedBoostActive := false;
      baseSpeed := InitialSpeed;
      speed := InitialSpeed;
      body := start;
      visualBody := visual;
    }

    /** Eases every visual segment toward its logical cell, adds a visual
        segment for each logical one that has none and drops the excess. */
    method UpdateVisualPositions()
      modifies this`visualBody
      ensures |visualBody| == |body|
      ensures forall i :: 0 <= i < |body| ==>
        visualBody[i] == if i < |old(visualBody)| then Ease(old(visualBody)[i], body[i]) else ToVisual(body[i])
    {
      for i := 0 to |body|
        invariant |visualBody| == if i < |old(visualBody)| then |old(visualBody)| else i
        invariant forall k :: 0 <= k < i ==>
          visualBody[k] == if k < |old(visualBody)| then Ease(old(visualBody)[k], body[k]) else ToVisual(body[k])
        invariant forall k :: i <= k < |visualBody| ==> visualBody[k] == old(visualBody)[k]
      {
        if i >= |visualBody| {
          visualBody := visualBody + [ToVisual(body[i])];
        } else {
          visualBody := visualBody[i := Ease(visualBody[i], body[i])];
        }
      }
      while |visualBody| > |body|
        invariant |visualBody| >= |body|
        invariant forall k :: 0 <= k < |body| ==>
          visualBody[k] == if k < |old(visualBody)| then Ease(old(visualBody)[k], body[k]) else ToVisual(body[k])
        decreases |visualBody|
      {
        visualBody := visualBody[..|visualBody| - 1];
      }
    }

    /** The cell the head would enter: one cell from the head along the
        committed direction. The body is left alone. */
    method Move() returns (head: Pos)
      requires |body| > 0
      ensures head == Shift(body[0], direction, CellSize)
      ensures Manhattan(head, body[0]) == CellSize
    {
      var x := body[0].x;
      var y := body[0].y;
      match direction {
        case Left => x := x - CellSize;
        case Right => x := x + CellSize;
        case Up => y := y - CellSize;
        case Down => y := y + CellSize;
      }
      head := Pos(x, y);
    }

    /** Prepends `position` as the new head. */
    method AddSegment(position: Pos)
      requires Valid()
      modifies this`body, this`visualBody
      ensures Valid()
      ensures body == [position] + old(body)
      ensures visualBody == [ToVisual(position)] + old(visualBody)
    {
      body := [position] + body;
      visualBody := [ToVisual(position)] + visualBody;
    }

    /** Removes and returns the last segment; on an empty body nothing
        changes and nothing is returned. */
    method RemoveTail() returns (tail: Option<Pos>)
      requires Valid()
      modifies this`body, this`visualBody
      ensures Valid()
      ensures old(body) == [] ==> tail == None && body == [] && visualBody == []
      ensures old(body) != [] ==>
        && tail == Some(old(body)[|old(body)| - 1])
        && body == old(body)[..|old(body)| - 1]
        && visualBody == old(visualBody)[..|old(visualBody)| - 1]
    {
      if |visualBody| > 0 {
        visualBody := visualBody[..|visualBody| - 1];
      }
      if |body| > 0 {
        tail := Some(body[|body| - 1]);
        body := body[..|body| - 1];
      } else {
        tail := None;
      }
    }

    /** Latches a requested direction as pending unless it is unknown or
        reverses the committed direction. */
    method SetDirection(request: string)
      requires Valid()
      modifies this`nextDirection
      ensures Valid()
      ensures nextDirection == Steered(direction, old(nextDirection), request)
    {
      if
        || (request == "left" && direction != Right)
        || (request == "right" && direction != Left)
        || (request == "up" && direction != Down)
        || (request == "down" && direction != Up)
      {
        nextDirection := ParseDirection(request).value;
      }
    }

    /** Commits the pending direction. */
    method ApplyDirection()
      requires Valid()
      modifies this`direction
      ensures Valid()
      ensures direction == nextDirection
    {
      direction := nextDirection;
    }

    /** True exactly when some segment, the tail included, is at (x, y). */
    method CheckCollisionWithSelf(x: int, y: int) returns (hit: bool)
      ensures hit <==> Pos(x, y) in body
    {
      for i := 0 to |body|
        invariant Pos(x, y) !in body[..i]
      {
        if x == body[i].x && y == body[i].y {
          return true;
        }
      }
      assert body[..|body|] == body;
      return false;
    }

    /** True exactly when (x, y) lies outside [0, width) x [0, height). */
    method CheckCollisionWithWalls(x: int, y: int) returns (hit: bool)
      ensures hit <==> !InBounds(Pos(x, y), width, height)
    {
      hit := x < 0 || x >= width || y < 0 || y >= height;
    }

    /** Turns the boost on or off and derives the move interval from it. */
    method SetBoost(active: bool)
      requires Valid()
      modifies this`speedBoostActive, this`speed
      ensures Valid()
      ensures speedBoostActive == active
      ensures speed == EffectiveSpeed(baseSpeed, active)
    {
      speedBoostActive := active;
      if active {
        speed := baseSpeed / BoostDivisor;
      } else {
        speed := baseSpeed;
      }
    }

    /** One fruit's speed-up, keeping the current boost state. */
    method IncreaseSpeed()
      requires Valid()
      modifies this`baseSpeed, this`speed
      ensures Valid()
      ensures baseSpeed == NextBaseSpeed(old(baseSpeed))
      ensures speed == EffectiveSpeed(baseSpeed, speedBoostActive)
    {
      if baseSpeed > MinBaseSpeed {
        baseSpeed := baseSpeed - SpeedStep;
        speed := if speedBoostActive then baseSpeed / BoostDivisor else baseSpeed;
      }
    }
  }
}
